=== FILE: README.md ===
# template-edit: a Dafny model of the document store, accounts and derived views

template-edit is a small document-management web application. Users sign up
and sign in. They upload `.docx`/`.odt` files, edit them in an embedded
OnlyOffice editor and preview them with placeholder codes (`$user.name`, …)
replaced by demo values. An administrator manages the placeholder catalogue
and the user accounts. A small Node backend stores the uploaded documents. It
hands the editor a configuration with a cache key, and receives the editor's
save callbacks.

This project models that logic as pure state transitions over immutable
datatypes and proves properties about them. One module stands for each
source file:

| module | file | what it models |
|---|---|---|
| `Text` | — | JS string semantics the code relies on: truthiness, `||` on strings, `split`, `pop`, `includes`, `startsWith`, ASCII `toLowerCase`, decimal rendering |
| `Lists` | — | `Array.prototype.filter`: order-preserving, with multiplicities kept |
| `Server` | `server/index.js` | the backend: a metadata map keyed by id and a blob map keyed by `id.ext`, with the upload, download, editor-configuration and save-callback handlers |
| `FlatStore` | `server/index.js` | the same upload and download over the single shared directory the code writes to (see Findings) |
| `JsLookup` | `server/index.js` | `extFromMime`'s table read through Object.prototype, and the upload it leads to (see Findings) |
| `DocumentServerApi` | `src/api/documentServer.js` | the client's key and extension derivation, its callback handling, and `fetchSignedConfig` (404 → register → retry, or the local fallback configuration) |
| `LocalCallback` | `src/api/server.js` | the in-browser save callback over the stored document list |
| `Auth` | `src/contexts/AuthContext.jsx`, `src/main.jsx` | the account list, the session and `isAdmin`, and the demo-user seed |
| `Routes` | `src/App.jsx` | `ProtectedRoute` and the route table |
| `AuthPage` | `src/pages/AuthPage.jsx` | the sign-in/sign-up form |
| `Settings` | `src/pages/Settings.jsx` | the profile form |
| `AdminPanel` | `src/pages/AdminPanel.jsx` | the placeholder form with its `$` rule, in-place editing, user creation, and two-step user deletion |
| `Documents` | `src/contexts/DocumentContext.jsx` | upload validation, the document list updates, placeholder add/update/delete, and the default-placeholder seed |
| `DocumentList` | `src/components/DocumentList.jsx` | the per-user list, `formatFileSize`, and each card's link and delete |
| `Preview` | `src/components/PDFPreview.jsx` | splitting the text on the placeholder codes and rendering the parts |
| `Sidebar` | `src/components/PlaceholderSidebar.jsx` | the category chips, the search/category filter, and what a card inserts |

**Conventions.**

- **Absent fields.** An absent or `null` string field is modelled as `""`,
  because the code only ever tests such fields for truthiness.
- **Storage slots.** A `localStorage` slot holding a list is an
  `Option<seq<…>>`. `None` means the slot is null or `""`. A stored empty
  list is `Some([])`, and JS treats it as truthy.
- **Inputs.** The clock, generated ids, JWT signing and verification, base64
  decoding, and the outcome of every `fetch` or `FileReader` are parameters.
- **Timestamps.** A timestamp is the millisecond count that
  `new Date(…).getTime()` would yield.

## Model

| member | source | states |
|---|---|---|
| Server.BaseUrl | server/index.js:32-38 | a set `PUBLIC_BASE_URL` wins, kept whole when it does not end in a slash and losing exactly that one slash when it does; otherwise exactly `proto://host`, each part taken from the forwarded header when that is non-empty and from the request otherwise |
| Server.ExtFromMime | server/index.js:40-50 | the table read as own keys, as the handler evidently intends: a MIME type in the table gives its own entry, and any other gives `docx` |
| Server.DocumentTypeFromExt | server/index.js:52-56 | `cell` exactly for xls/xlsx/ods, `slide` exactly for ppt/pptx/odp, otherwise `word` |
| Server.ExtOf | server/index.js:65 | a dotted name gives the dot-free, lowercased suffix that follows the name's last dot; a dotless name gives the MIME table's extension |
| Server.ExtOfDottedName | server/index.js:65 | a name `base.e`, with `e` dot-free, records the extension `lower(e)` whatever the base |
| Server.DataPart | server/index.js:76 | the second comma-separated piece when there is one and it is non-empty, otherwise the whole string; the result is either the whole string or a non-empty, comma-free piece of it |
| Server.DataPartOfDataUrl | server/index.js:76 | a data URL `header,payload` keeps exactly its payload |
| Server.BlobKeyInjective | server/index.js:66 | with dot-free extensions, `id.ext` file names of different documents or extensions never coincide |
| Server.Upload | server/index.js:59-87 | a missing id, name or type, or neither payload, gives 400 and no change; otherwise the metadata is set under the id; a `fileUrl` (which wins over base64) stores no bytes and answers the url itself; base64 stores the decoded data part under `id.ext` and answers the download route |
| Server.UploadPreservesWellFormed | server/index.js:65-79 | every record stays under its own id with a dot-free extension |
| Server.Download | server/index.js:90-105 | 404 without metadata; a redirect when a `fileUrl` is set; otherwise the bytes stored under `id.ext` are served with the original name exactly when they exist, and 404 is answered when they are missing |
| Server.UploadDownloadRoundTrip | server/index.js:76-104 | with the table read as own keys, after an embedded upload the download serves exactly the decoded data part under the uploaded name |
| JsLookup.Lookup | server/index.js:41-49 | `map[mime]`: a table type gives its entry; an inherited method name gives that function, and `__proto__` the prototype object; any other type gives `undefined` |
| JsLookup.ExtFromMimeAsWritten | server/index.js:40-50 | `map[mime]` with the `'docx'` fallback agrees with the own-key table on every type that is not an inherited key; an inherited method name gives a function, and `__proto__` the prototype object |
| JsLookup.JsonRoundTrip | server/index.js:79 | `JSON.stringify` drops a function-valued `ext`; any other value comes back as it was written |
| JsLookup.ExtValue | server/index.js:65 | the extension value agrees with the model's whenever the name has a dot or the type is not an inherited key |
| JsLookup.Upload | server/index.js:59-87 | the handler as written, with bytes under `${id}.${ext}` and the metadata keeping the `ext` that survives JSON; it is the model's upload exactly, except for a dotless name whose type is an inherited key |
| JsLookup.InheritedTypeLosesUpload | server/index.js:65-104 | a dotless name whose type is an inherited method name uploads, but its download answers 404 |
| JsLookup.ToStringTypeExample | server/index.js:65-104 | `{id:"d1", name:"README", type:"toString"}` uploads, and its download answers 404 |
| JsLookup.ProtoTypeStillServes | server/index.js:65-104 | with type `__proto__` the bytes are still served, because the prototype object and its JSON copy print alike |
| Server.ExternalUploadRedirects | server/index.js:69-99 | after a `fileUrl` upload, the download redirects to that url and no bytes were written |
| Server.DocumentKeyChangesWithTime | server/index.js:117 | for a fixed id, the key `id_updatedAt` changes exactly when `updatedAt` does |
| Server.Config | server/index.js:108-135 | 404 exactly for an unknown id, before anything is signed; otherwise the key, type, title, url (`fileUrl` or the download route), document type, full permissions and callback url; the token signs exactly that configuration |
| Server.BearerToken | server/index.js:142-143 | a header starting with the case-sensitive "Bearer " yields the rest of the header; otherwise the body's token |
| Server.Callback | server/index.js:138-165 | a present token that fails verification gives 403 `{error:1}` and no change; past that check, a status other than 2 or 6, or a missing url, gives `{error:0}` and no change; a failed fetch or unknown id gives HTTP 200 `{error:1}` and no change; a save answers 200 `{error:0}` exactly when the fetch succeeded and the id is known, and then replaces the bytes and moves `updatedAt` to the clock, and nothing else changes |
| Server.CallbackPreservesWellFormed | server/index.js:148-157 | a callback keeps every record under its own id with a dot-free extension |
| Server.SaveChangesDocumentKey | server/index.js:117-156 | after a successful save, the editor key changes exactly when the clock has moved since the last write |
| Server.SaveThenDownload | server/index.js:148-158 | after a successful save, a local document serves the fetched bytes, while a `fileUrl` document still redirects to its url |
| Server.CallbackLeavesOtherDocuments | server/index.js:151-157 | a callback for one id leaves what every other id downloads unchanged |
| FlatStore.Upload | server/index.js:66-79 | the upload into the single directory: an invalid request writes nothing; with a `fileUrl` only `id.json` is written; otherwise the decoded bytes go to `id.ext` first and the metadata to `id.json` after, and every other file is unchanged |
| FlatStore.Download | server/index.js:90-105 | the download from the single directory: a missing record is 404; bytes where `id.json` should be are a server error; a record with a `fileUrl` redirects to it; otherwise the file `id.ext` named by the record is served under the record's name, or 404 when it is missing |
| FlatStore.JsonUploadServesMetadata | server/index.js:66-79 | as written, an embedded upload whose extension is `json` downloads as its own metadata record |
| FlatStore.JsonUploadExample | server/index.js:65-79 | a concrete instance: `notes.json` uploaded as id `d1` downloads as the metadata |
| FlatStore.OtherExtensionsRoundTrip | server/index.js:76-104 | with any other extension, the single directory reads the upload back unchanged |
| DocumentServerApi.ClientBaseUrl | src/api/documentServer.js:9 | the build-time base URL when set, else the page origin |
| DocumentServerApi.DocumentUrl | src/api/documentServer.js:13-19 | non-empty exactly for a `data:` URL, which is returned unchanged |
| DocumentServerApi.GenerateDocumentKey | src/api/documentServer.js:23-25 | the key starts with `id_` |
| DocumentServerApi.ClientKeyMatchesServerKey | src/api/documentServer.js:23-25 | the client's key equals the backend's for the same time, and changes exactly when the time does |
| DocumentServerApi.ClientExtFromMime | src/api/documentServer.js:35-42 | the client's four-entry table read as own keys, with `docx` for any other MIME type |
| DocumentServerApi.GetFileExtension | src/api/documentServer.js:28-43 | a non-empty, dot-free result; for a name not ending in '.', the lowercased suffix after the last dot, so a dotless name gives the whole name; the MIME table only for an empty name or one ending in '.' |
| DocumentServerApi.LastPieceExtension | src/api/documentServer.js:29-31 | `split('.').pop().toLowerCase()` of a non-empty name is dot-free, the lowered suffix after the last dot, and empty exactly when the name ends in '.'; a dotless name gives the whole name lowered |
| DocumentServerApi.ExtensionAgreesWithServer | src/api/documentServer.js:28-32 | for `base.e` with `e` non-empty and dot-free, the client and the backend derive the same extension |
| DocumentServerApi.DotlessNameDisagrees | src/api/documentServer.js:29-31 | for the dotless name `Report`, the client derives `report` while the backend derives `docx` |
| DocumentServerApi.HandleCallback | src/api/documentServer.js:46-84 | the saved data exactly for status 2 or 6 with a url and a successful read; `{success:false,error:1}` exactly when the fetch throws; a rejection when the read fails; acknowledged exactly when the status or url does not call for a save |
| DocumentServerApi.CallbackAgreesWithServer | src/api/documentServer.js:49-83 | where the client reports saved data, the backend performs exactly the save with `{error:0}`; where the client acknowledges, the backend acknowledges and changes nothing |
| DocumentServerApi.RegistrationPayload | src/api/documentServer.js:93-95 | id, name and type are copied; base64 is present exactly when the document has data, and `fileUrl` exactly when it has a url |
| DocumentServerApi.ReRegistrationRedirectsToItself | src/contexts/DocumentContext.jsx:83-96 | a document uploaded while the backend was reachable keeps the backend's download route as `fileUrl`; registering it again stores no bytes, and the download route then redirects to itself |
| DocumentServerApi.RestoringPayload | src/api/documentServer.js:93-95 | the registration body with the data alone whenever the document carries data, and the original body otherwise; it is accepted exactly when the original body is |
| DocumentServerApi.RestoringPayloadServesData | server/index.js:76-81 | with that body, a registered document that carries data is served from the backend's storage as the decoded data part |
| DocumentServerApi.FallbackConfig | src/api/documentServer.js:112-138 | edit permission exactly in edit mode; the client's extension and the backend's type mapping; the url is `fileUrl` or the download route; the callback route; the document's user, or `user1` when it has none; the key is the client's `id_lastModified` key |
| DocumentServerApi.FetchSignedConfig | src/api/documentServer.js:87-140 | the config is requested first; registration happens exactly on a 404 for a document with data or a url; a second request happens exactly when registration was answered ok; the last answer's signed config is used when ok and parsed, and otherwise the fallback with no token |
| DocumentServerApi.RegistrationIsAccepted | src/api/documentServer.js:91-104 | the registration the client sends is a valid upload, and the backend then issues a config for the id |
| DocumentServerApi.FallbackMatchesServerConfig | src/api/documentServer.js:114-132 | for a dotted name, when client and backend agree on the base URL and the time, the fallback config equals the backend's for the registered document, except for the user |
| LocalCallback.FirstIndex | src/api/server.js:37 | `findIndex`: the first position with the id, or none exactly when no document has it |
| LocalCallback.HandleOnlyOfficeCallback | src/api/server.js:5-64 | any status other than 2 or 6, or a missing url, gives `{error:0}` and no change; a thrown fetch, a missing list or an unknown id gives `{error:1}` and no change; otherwise the first document with the id gets the reader's result and the clock, and every other document is unchanged |
| LocalCallback.SaveIsIdempotent | src/api/server.js:37-45 | delivering the same save twice leaves the same list as delivering it once |
| LocalCallback.FirstIndexUnchangedByUpdate | src/api/server.js:37-40 | rewriting the first match, keeping its id, keeps it the first match |
| LocalCallback.SavedDataReachesEditor | src/api/server.js:30-45 | after a successful save, the editor's document url is the saved data URL |
| Auth.FindCredentials | src/contexts/AuthContext.jsx:46 | `find`: the first user with both the email and the password, or none exactly when none matches |
| Auth.EmailTaken | src/contexts/AuthContext.jsx:86 | true exactly when some user has the email |
| Auth.Mount | src/contexts/AuthContext.jsx:22-35 | `isAdmin` is true exactly when the stored session's role is `admin` |
| Auth.Login | src/contexts/AuthContext.jsx:44-71 | succeeds exactly when some user has both the email and the password; on success the session is the first such user in stored order, without a password, and `isAdmin` follows that user's role; on failure nothing changes |
| Auth.Logout | src/contexts/AuthContext.jsx:73-81 | the session and `isAdmin` are cleared and the users are kept |
| Auth.Register | src/contexts/AuthContext.jsx:83-113 | refused, with nothing changed, exactly when the email is taken; otherwise exactly one user with role `user` is appended after the unchanged others |
| Auth.DeleteUser | src/contexts/AuthContext.jsx:115-125 | exactly the users with the id are removed; the rest keep their order and their number of copies |
| Auth.MergeSession | src/contexts/AuthContext.jsx:140-146 | the name and email come from the patch when it carries them and are kept otherwise; id and role are kept; a non-empty password, from the patch or the session, is dropped, while an empty one is kept |
| Auth.UpdateProfile | src/contexts/AuthContext.jsx:127-153 | the patch is merged into exactly the users with the id; the session takes it only when it is that user's; `isAdmin` stays consistent |
| Auth.RegisterKeepsEmailsDistinct | src/contexts/AuthContext.jsx:83-105 | registration keeps emails pairwise distinct |
| Auth.UpdateProfileCanDuplicateEmails | src/contexts/AuthContext.jsx:127-136 | a profile update can give two accounts the same email |
| Auth.OperationsKeepAdminFlag | src/contexts/AuthContext.jsx:27-76 | every operation keeps `isAdmin` equal to "the session's role is admin" |
| Auth.RegisterThenLogin | src/contexts/AuthContext.jsx:44-105 | a freshly registered account logs in as a non-admin user with its new id |
| Auth.BlankPasswordKeepsPassword | src/contexts/AuthContext.jsx:128-134 | an update carrying only name and email keeps every stored password |
| Auth.SeedDemoUsers | src/main.jsx:7-30 | an empty slot is seeded with users `1` and `2`, with distinct emails, of which only the first is an admin; a stored list, even an empty one, is kept |
| Auth.SeedIdempotent | src/main.jsx:8-9 | seeding twice is seeding once |
| Auth.DemoAdminLogsIn | src/main.jsx:10-18 | after seeding, `admin@example.com` / `admin123` logs in as an administrator |
| Routes.Protected | src/App.jsx:15-27 | no session redirects to `/login` whatever the page; a non-admin on an admin page goes to `/`; otherwise the page renders |
| Routes.Resolve | src/App.jsx:40-61 | a path matching `/login` is public; one matching `/` or `/settings` needs a session; one matching `/admin` needs an admin; a path matching none of them redirects to `/` |
| Routes.MatchesIsPatternThenSlashes | src/App.jsx:40-61 | a path matches a route exactly when, in lower case, it is the route's path followed by any number of slashes |
| Routes.PatternsExclusive | src/App.jsx:40-61 | no path matches two of the four routes, so their order in the table does not matter |
| Routes.Matches | src/App.jsx:40-61 | the compiled route pattern `^path\/*$` under the `i` flag: a URL path as long as the route path matches exactly when its lower case is the route path (trailing slashes are stated by Routes.MatchesIsPatternThenSlashes) |
| Routes.RedirectTargetsMatch | src/App.jsx:17-22 | the two redirect targets `/login` and `/` match their own routes, and `/login` does not match `/admin` |
| Routes.Follow | src/App.jsx:15-61 | following the `<Navigate replace>` redirects: a path that renders does so at once; a redirect still pending leads to `/login` or `/`; the admin panel is only ever shown to a signed-in administrator |
| Routes.EveryPathSettles | src/App.jsx:15-61 | every path reaches a page within two redirects; without a session that page is the login page, and with one it never is, except from a path matching `/login` |
| Routes.AdminPanelOnlyForAdmins | src/App.jsx:49-61 | the admin panel is reached, after any number of redirects, exactly from a path matching `/admin`, by a signed-in administrator |
| AuthPage.Submit | src/pages/AuthPage.jsx:26-41 | login mode only logs in, and goes to `/` exactly on success; sign-up mode only registers and never signs in; a successful sign-up switches to login mode with empty fields, and a failed one keeps mode and fields |
| AuthPage.Toggle | src/pages/AuthPage.jsx:131 | the mode flips and the fields are untouched |
| AuthPage.RedirectIfSignedIn | src/pages/AuthPage.jsx:20-24 | a visitor goes to `/` exactly when signed in |
| AuthPage.SignUpThenSignIn | src/pages/AuthPage.jsx:34-39 | after a sign-up the fields are empty, and signing in with the same credentials lands on `/` |
| Settings.OpenForm | src/pages/Settings.jsx:15-19 | the form opens with the session's name and email and no password |
| Settings.BuildUpdates | src/pages/Settings.jsx:23-29 | the update always carries name and email, and carries the password exactly when one was typed |
| Settings.Submit | src/pages/Settings.jsx:21-32 | the update goes to the signed-in user's own id; afterwards the password field is empty and the rest is kept |
| Settings.PasswordChangesOnlyWhenTyped | src/pages/Settings.jsx:27-30 | a blank password leaves every stored password; a typed one becomes the password of exactly the signed-in user's records |
| Settings.SavedCredentialsSignIn | src/pages/Settings.jsx:21-32 | after saving, the user can sign in with the new email and the new password, or the old one if none was typed |
| Settings.SessionNeverKeepsPassword | src/pages/Settings.jsx:30 | the session never ends up holding a typed password |
| Settings.SignOut | src/pages/Settings.jsx:34-37 | the session ends and the page moves to `/login` |
| AdminPanel.AddPlaceholder | src/pages/AdminPanel.jsx:40-52 | a code not starting with `$` changes nothing; otherwise the form is appended under a new id and all four fields are reset |
| AdminPanel.StartEdit | src/pages/AdminPanel.jsx:251-253 | editing starts on that placeholder, and saving the untouched form would change nothing |
| AdminPanel.SaveEdit | src/pages/AdminPanel.jsx:54-58 | the edit form is merged into the placeholders with the id, and the editing state is cleared |
| AdminPanel.CancelEdit | src/pages/AdminPanel.jsx:231 | editing ends and nothing else changes |
| AdminPanel.DeletePlaceholder | src/pages/AdminPanel.jsx:260 | exactly the placeholders with the id are removed; the rest keep their order and their number of copies, and nothing else on the page changes |
| AdminPanel.AddKeepsDollarCodes | src/pages/AdminPanel.jsx:42-50 | adding through the form keeps every code starting with `$` |
| AdminPanel.EditBypassesDollarCheck | src/pages/AdminPanel.jsx:54-58 | an edit whose form carries a code without the `$` stores that code in every placeholder with the id, so the panel no longer holds only `$` codes |
| AdminPanel.CreateUser | src/pages/AdminPanel.jsx:60-65 | registers with the form's email, password and name; the form is reset exactly when registration succeeds |
| AdminPanel.RoleFieldIgnored | src/pages/AdminPanel.jsx:62 | the role chosen makes no difference, and every account created here has role `user` |
| AdminPanel.RequestDeleteUser | src/pages/AdminPanel.jsx:67-78 | one's own id is refused and arms nothing; any other id only arms the confirmation |
| AdminPanel.ConfirmDeleteUser | src/pages/AdminPanel.jsx:80-83 | deletes the armed id and disarms; with nothing armed, no user is removed |
| AdminPanel.CancelDeleteUser | src/pages/AdminPanel.jsx:353 | disarms and deletes nothing |
| AdminPanel.ActionsKeepConfirmSafe | src/pages/AdminPanel.jsx:67-83 | no action of the page ever arms the signed-in administrator's own id |
| AdminPanel.ConfirmNeverDeletesSelf | src/pages/AdminPanel.jsx:67-83 | confirming never removes the signed-in administrator's account |
| AdminPanel.RequestThenConfirm | src/pages/AdminPanel.jsx:77-83 | arming another user and confirming removes exactly that user's records |
| Documents.UploadedDoc | src/contexts/DocumentContext.jsx:73-96 | the new document carries the user, name, type, size and data; `serverId` and `fileUrl` are present exactly when the backend answered ok |
| Documents.UploadDocument | src/contexts/DocumentContext.jsx:44-121 | a type outside docx/odt answers false and adds nothing; an accepted one answers true and, once read, appends exactly one document after the others; a failed read appends nothing |
| Documents.UpdateDocument | src/contexts/DocumentContext.jsx:123-151 | only documents with the id change: new content and time, and new data only when truthy data is given; the open document follows only when it is the one saved, and then gets the same new content, time and data rule with every other field kept |
| Documents.DeleteDocument | src/contexts/DocumentContext.jsx:153-162 | exactly the documents with the id are removed, and the rest keep their order and multiplicity |
| Documents.Merge | src/contexts/DocumentContext.jsx:180 | object spread: each of the five fields the patch carries replaces the placeholder's, and every field it lacks is kept, so an empty patch changes nothing |
| Documents.MergeLaws | src/contexts/DocumentContext.jsx:180 | merging a placeholder's own fields changes nothing; merging another's full fields gives that placeholder; merging the same patch twice is merging once |
| Documents.AddPlaceholder | src/contexts/DocumentContext.jsx:164-177 | exactly one placeholder, the form's fields under the new id, is appended after the unchanged list |
| Documents.UpdatePlaceholder | src/contexts/DocumentContext.jsx:179-188 | the patch is merged into exactly the placeholders with the id |
| Documents.DeletePlaceholder | src/contexts/DocumentContext.jsx:190-199 | exactly the placeholders with the id are removed, and the rest keep their order and multiplicity |
| Documents.SeedPlaceholders | src/contexts/DocumentContext.jsx:21-42 | an empty slot gives eight defaults with distinct ids and codes, all starting with `$`; a stored list, even an empty one, is kept |
| Lists.Filter | src/contexts/DocumentContext.jsx:154 | `filter`: an order-preserving subsequence holding exactly the passing elements, with their multiplicity |
| DocumentList.UserDocs | src/components/DocumentList.jsx:13 | exactly the current user's documents, in stored order and with their number of copies |
| DocumentList.KiloTenths | src/components/DocumentList.jsx:17 | the nearest tenth of the size in KB, with ties going up |
| DocumentList.MegaTenths | src/components/DocumentList.jsx:18 | the nearest tenth of the size in MB, with ties going up |
| DocumentList.OneDecimal | src/components/DocumentList.jsx:17-18 | digits, a dot and one digit, which read back as the given number of tenths |
| DocumentList.FormatFileSize | src/components/DocumentList.jsx:15-19 | bytes below 1024, KB below 1 MiB, MB from 1 MiB on |
| DocumentList.SmallSizeReadsBack | src/components/DocumentList.jsx:16 | a size below 1024 reads back exactly from its `N B` label |
| DocumentList.KiloLabelBounds | src/components/DocumentList.jsx:17 | a KB label lies between 1.0 and 1024.0, within half a tenth of the true size |
| DocumentList.JustUnderOneMegabyte | src/components/DocumentList.jsx:17 | 1048575 bytes is labelled `1024.0 KB` |
| DocumentList.Link | src/components/DocumentList.jsx:79-80 | the document's `fileUrl` when set, else the download route under the base URL |
| DocumentList.CardFor | src/components/DocumentList.jsx:45-80 | a card shows the document's id, name, size label and link |
| DocumentList.ListView | src/components/DocumentList.jsx:31-45 | the empty state exactly when the user owns no document; otherwise one card per owned document, in order |
| DocumentList.DeleteCard | src/components/DocumentList.jsx:58 | the delete button removes exactly the documents with that card's id; the rest keep their order and their number of copies |
| DocumentList.DeleteRemovesFromList | src/components/DocumentList.jsx:58 | deleting a card takes exactly that document off the list |
| DocumentList.LinkIsEditorUrl | src/components/DocumentList.jsx:79-80 | the card's link is the url the fallback editor configuration uses |
| DocumentList.LinkDownloadsUpload | src/components/DocumentList.jsx:79-80 | for a locally stored document, the link is the backend's download route, which serves the uploaded bytes |
| Preview.FirstMatch | src/components/PDFPreview.jsx:103-104 | the first listed alternative that matches at the position, or none exactly when none does |
| Preview.Alternatives | src/components/PDFPreview.jsx:103 | the codes in order, matched literally; `[""]` (the pattern `()`) when there are no placeholders |
| Preview.ScanConcat | src/components/PDFPreview.jsx:106 | the parts of the split, joined, give the text back |
| Preview.SplitByCodes | src/components/PDFPreview.jsx:106 | `content.split(regex)`: the parts join back to the content; an empty content splits into no parts exactly when the pattern matches the empty string, and into one empty part otherwise |
| Preview.SplitConcat | src/components/PDFPreview.jsx:106 | `content.split(regex)` joined gives `content` back exactly |
| Preview.ScanShape | src/components/PDFPreview.jsx:104-106 | the parts alternate text and code, and every odd part is one of the codes |
| Preview.FindByCode | src/components/PDFPreview.jsx:109 | `find`: the first placeholder with exactly that code, or none exactly when none has it |
| Preview.RenderPart | src/components/PDFPreview.jsx:108-117 | a part equal to some code shows the first such placeholder; any other part shows verbatim |
| Preview.RenderParts | src/components/PDFPreview.jsx:108-118 | every part is rendered on its own, in order |
| Preview.View | src/components/PDFPreview.jsx:70 | the page is shown exactly when `show` is set and the content is non-empty |
| Preview.ScanShowsSubstitution | src/components/PDFPreview.jsx:103-118 | with non-empty codes, the displayed text from any point of the split equals the leftmost, first-listed substitution |
| Preview.RenderMatchesSubstitution | src/components/PDFPreview.jsx:103-118 | with non-empty codes, the preview shows exactly the leftmost, first-listed substitution of the content |
| Preview.PlainDisplay | src/components/PDFPreview.jsx:117 | without placeholders, every part shows verbatim |
| Preview.NoPlaceholdersShowContent | src/components/PDFPreview.jsx:103-118 | without placeholders, the body is all plain text and shows `content` unchanged |
| Preview.HighlightsAreFirstWithCode | src/components/PDFPreview.jsx:109-115 | a highlighted segment shows the first placeholder whose code equals the part |
| Sidebar.Dedup | src/components/PlaceholderSidebar.jsx:13 | `[...new Set(xs)]`: the same values, each once, as a subsequence of the input |
| Sidebar.DedupKeepsFirstAppearanceOrder | src/components/PlaceholderSidebar.jsx:13 | the chips of any prefix of the list are a prefix of the chips, i.e. first-appearance order |
| Sidebar.Categories | src/components/PlaceholderSidebar.jsx:13 | `All` first, then every category in use exactly once |
| Sidebar.Filtered | src/components/PlaceholderSidebar.jsx:15-20 | an order-preserving subsequence that keeps each shown placeholder's number of copies; a placeholder is shown exactly when the lowercased term occurs in its lowercased code or category and the selection is `All` or its category |
| Sidebar.InitialShowsEverything | src/components/PlaceholderSidebar.jsx:10-20 | an empty search with `All` selected shows every placeholder |
| Sidebar.ChipShowsOnlyItsCategory | src/components/PlaceholderSidebar.jsx:18 | selecting a category other than `All` shows only that category |
| Sidebar.SearchIgnoresCase | src/components/PlaceholderSidebar.jsx:16-17 | searching for the lowercased term shows the same cards |
| Sidebar.InsertedCodePreviewsAsDemo | src/components/PlaceholderSidebar.jsx:85 | a text holding just the inserted code previews as that placeholder's demo value, unless an earlier code is a prefix of it |
| Text.Lower | server/index.js:65 | ASCII `toLowerCase`: same length, every letter lowered |
| Text.AfterLast | server/index.js:65 | `split('.').pop()`: the dot-free suffix after the last dot |
| Text.Split | server/index.js:76 | `split(',')`: the pieces contain no separator and, joined back with it, give the string |

## Left out

- Express and the filesystem: routing, CORS, static and SPA serving, and `/healthz`.
- Exceptions other than a failed fetch, such as an unreadable metadata file, are not modelled. The upload handler's `catch` answers 500 for them, and the callback's `catch` answers HTTP 200 `{error:1}` for any exception.
- JWT signing and verification: `sign` and `tokenValid` are parameters, so the ten-minute expiry is not modelled.
- Base64 decoding is the `decode` parameter. `fetch` and `FileReader` outcomes are inputs.
- The clock and generated ids are inputs. Their uniqueness is not assumed.
- `toLowerCase` is ASCII-only, so Unicode case mapping is not modelled.
- Routes.Matches: the path is not percent-decoded first, while React Router decodes `%xx` escapes before matching.
- Routes.Follow has a hop bound, because React Router's redirects cannot be followed without one.
- Server.Config does not model `lang`, `customization`, the editor user's display name, or the frame size, because none of them affect the store.
- `processContent` in the preview is never called, so it is not modelled.
- DocumentEditor.jsx, Dashboard.jsx and OnlyOfficeStatus.jsx are not part of this model: they are editor glue, wiring, and a network probe.
- The `allUsers` mirror that AuthContext.jsx keeps for the admin list is not modelled. Every operation reads the stored list afresh.
- `dms_user` persistence is not modelled. The session is the in-memory value.
- Keystrokes in the admin's edit form are not modelled. The form is any patch.
- Concurrency is not modelled. This includes races between uploads and callbacks and the stale `documents` closure after the asynchronous read in uploadDocument.
- Preview.RenderMatchesSubstitution: requires non-empty codes, because an empty code makes the pattern match the empty string. Preview.SplitConcat and Preview.ScanShape still hold for that case.
- DocumentList.FormatFileSize: models `toFixed(1)` exactly only for sizes below 2^53, where dividing by a power of two is exact in floating point.
- Settings.Submit: requires a session, because the page renders only behind `ProtectedRoute`. AdminPanel.RequestDeleteUser has the same requirement for the same reason.
- LocalCallback.HandleOnlyOfficeCallback: `lastModified` is an ISO string in the code and the millisecond count here. A null read result is written as `""`.
- LocalCallback.HandleOnlyOfficeCallback: storage exceptions are not modelled. `JSON.parse` of the slot and `localStorage.setItem` run inside `onloadend`, outside the `try`. When one of them throws, for instance on a full quota, nothing is written and the promise never settles, so the contract's updated list and `{error:0}` are not promised there. The `setItem` calls in DocumentContext.jsx run after `setDocuments`, so a failed write there leaves memory and storage apart; the model treats every write as succeeding.
- Server.ExtFromMime: reads the table as own keys only. The code's `map[mime]` also finds the members inherited from Object.prototype (`toString`, `constructor`, `__proto__`, …); JsLookup models that reading and Findings gives its consequence.
- Server.UploadDownloadRoundTrip: holds for the own-key table. With the code's lookup, a dotless name whose type is an inherited method name is not served back (JsLookup.InheritedTypeLosesUpload).
- DocumentServerApi.ClientExtFromMime: reads the client's table as own keys only. For a type naming an Object.prototype member the code yields that member, not `docx`; the client uses this table only when `split('.').pop()` is empty.

## Findings

| source | as written | input that shows it | evidently intended | confidence | as-written member | corrected member |
|---|---|---|---|---|---|---|
| src/api/documentServer.js:93-95 | a document uploaded while the backend was reachable holds the backend's own download route as `fileUrl`; when the backend later answers 404 for it, the registration sends that route along with the data, and the url wins | upload `report.docx` while the backend answers, lose the backend's storage, then open the document: the registration stores `fileUrl` = `<base>/api/documents/<id>/download`, and that route redirects to itself | the registration restores the document's bytes | not executed | DocumentServerApi.ReRegistrationRedirectsToItself | DocumentServerApi.RestoringPayloadServesData |
| server/index.js:40-50 | `map[mime]`, before its `'docx'` fallback, reads the key through Object.prototype, so a type naming an inherited method yields that function; the bytes go to `id.function toString() { [native code] }`, while `JSON.stringify` drops the function-valued `ext` from the metadata | POST `{id:"d1", name:"README", type:"toString", base64:"aGk="}`, then GET `/api/documents/d1/download`: the handler looks for `d1.undefined` and answers 404 | a type outside the table falls back to `docx`, and the bytes are served back | not executed | JsLookup.ToStringTypeExample | Server.UploadDownloadRoundTrip |
| server/index.js:66-79 | bytes go to `id.ext` and metadata to `id.json` in the same directory, with the metadata written second | upload `{id:"d1", name:"notes.json", type:"application/json", base64:"e30="}`, then GET `/api/documents/d1/download` | the download serves the uploaded bytes | not executed | FlatStore.JsonUploadServesMetadata | Server.UploadDownloadRoundTrip |

Notes on the code as written:

- **Inherited table keys.** The Object.prototype reading costs nothing
  for `__proto__`: the prototype object and its JSON copy both print as
  `[object Object]`, so those bytes are still served
  (JsLookup.ProtoTypeStillServes). The client's own upload admits only the
  docx and odt types, so only a direct request reaches the other keys.
- **Registering a document again.** DocumentServerApi.FetchSignedConfig
  keeps the code's registration body (DocumentServerApi.RegistrationPayload),
  so the model of the client stays faithful. DocumentServerApi.RestoringPayload
  is the corrected body that sends only the data when the document has data.
- **A document can hold both an external url and local bytes.** A save
  callback on a document uploaded with a `fileUrl` writes bytes and keeps the
  url. The download goes on redirecting, so the saved bytes are never served
  (Server.SaveThenDownload).
- **The stored base64 text.** `base64.split(',')[1] || base64` keeps the piece
  between the first and second comma, not everything after the first comma.
  A data URL has only one comma, so the two readings agree there
  (Server.DataPartOfDataUrl).
- **A dotless file name.** The client's extension for a dotless name is the
  whole name, while the backend falls back to its MIME table
  (DocumentServerApi.DotlessNameDisagrees).
- **The `$` rule covers only new placeholders.** Saving an edit stores any
  code (AdminPanel.EditBypassesDollarCheck).
- **Duplicate emails.** A profile update does not check that a new email is
  free (Auth.UpdateProfileCanDuplicateEmails).

=== FILE: admin_panel.dfy ===
/** The administrator's page (`AdminPanel.jsx`): the new-placeholder form
    with its `$` rule, in-place placeholder editing, the create-user form,
    and the two-step user deletion that refuses to delete the signed-in
    administrator. The page is reached only with a session (see `Routes`). */
module AdminPanel {
  import opened Text
  import Auth
  import Lists
  import Documents

  /** The create-user form; its role field is shown but never used. */
  datatype NewUserForm = NewUserForm(name: string, email: string, password: string, role: string)

  const BlankUserForm := NewUserForm("", "", "", "user")
  const BlankPlaceholderForm := Documents.PlaceholderFields("", "", "", "")

  datatype Panel = Panel(
    auth: Auth.AuthState, placeholders: seq<Documents.Placeholder>,
    newPlaceholder: Documents.PlaceholderFields,
    editingId: Option<string>, editForm: Documents.PlaceholderPatch,
    newUser: NewUserForm, deleteConfirmId: Option<string>)

  // ---------------------------------------------------------------------------
  // Placeholders

  /** `handleAddPlaceholder`: a code without the leading `$` is refused and
      nothing changes; otherwise the form is added under a new id and then
      cleared. */
  function AddPlaceholder(pn: Panel, newId: string): (r: Panel)
    ensures !StartsWith(pn.newPlaceholder.code, "$") ==> r == pn
    ensures StartsWith(pn.newPlaceholder.code, "$") ==>
      r == pn.(placeholders := Documents.AddPlaceholder(pn.placeholders, pn.newPlaceholder, newId),
               newPlaceholder := BlankPlaceholderForm)
  {
    if !StartsWith(pn.newPlaceholder.code, "$") then pn
    else pn.(placeholders := Documents.AddPlaceholder(pn.placeholders, pn.newPlaceholder, newId),
             newPlaceholder := BlankPlaceholderForm)
  }

  /** The edit button: the placeholder's card turns into a form holding all
      its fields. */
  function StartEdit(pn: Panel, p: Documents.Placeholder): (r: Panel)
    ensures r.editingId == Some(p.id) && r == pn.(editingId := r.editingId, editForm := r.editForm)
    ensures Documents.Merge(p, r.editForm) == p
  {
    Documents.MergeLaws(p, p, Documents.FullPatch(p));
    pn.(editingId := Some(p.id), editForm := Documents.FullPatch(p))
  }

  /** `handleUpdatePlaceholder`: the edit form is merged into the
      placeholders with the id, and the editing state is cleared. The code
      is not checked for the `$` here. */
  function SaveEdit(pn: Panel, id: string): (r: Panel)
    ensures r.placeholders == Documents.UpdatePlaceholder(pn.placeholders, id, pn.editForm)
    ensures r.editingId.None? && r.editForm == Documents.EmptyPatch
    ensures r.auth == pn.auth && r.deleteConfirmId == pn.deleteConfirmId && r.newUser == pn.newUser
  {
    pn.(placeholders := Documents.UpdatePlaceholder(pn.placeholders, id, pn.editForm),
        editingId := None, editForm := Documents.EmptyPatch)
  }

  /** The edit form's cancel button leaves editing but keeps the form. */
  function CancelEdit(pn: Panel): (r: Panel)
    ensures r.editingId.None? && r == pn.(editingId := None)
  {
    pn.(editingId := None)
  }

  /** The delete button on a placeholder card. */
  function DeletePlaceholder(pn: Panel, id: string): (r: Panel)
    ensures Lists.IsSubsequence(r.placeholders, pn.placeholders)
    ensures forall p :: p in r.placeholders <==> p in pn.placeholders && p.id != id
    ensures forall p: Documents.Placeholder :: p.id != id ==> multiset(r.placeholders)[p] == multiset(pn.placeholders)[p]
    ensures r == pn.(placeholders := r.placeholders)
  {
    pn.(placeholders := Documents.DeletePlaceholder(pn.placeholders, id))
  }

  ghost predicate CodesStartWithDollar(ps: seq<Documents.Placeholder>) {
    forall i :: 0 <= i < |ps| ==> StartsWith(ps[i].code, "$")
  }

  /** Adding through the form keeps every code starting with `$`. */
  lemma AddKeepsDollarCodes(pn: Panel, newId: string)
    requires CodesStartWithDollar(pn.placeholders)
    ensures CodesStartWithDollar(AddPlaceholder(pn, newId).placeholders)
  {
  }

  /** Saving an edit does not: a code edited to lose its `$` is stored in
      every placeholder with the id, so the panel no longer has only `$` codes. */
  lemma EditBypassesDollarCheck(pn: Panel, id: string, k: nat, c: string)
    requires k < |pn.placeholders| && pn.placeholders[k].id == id
    requires pn.editForm.code == Some(c) && !StartsWith(c, "$")
    ensures forall i :: 0 <= i < |pn.placeholders| && pn.placeholders[i].id == id ==>
      SaveEdit(pn, id).placeholders[i].code == c
    ensures !CodesStartWithDollar(SaveEdit(pn, id).placeholders)
  {
    var after := SaveEdit(pn, id).placeholders;
    assert after[k].code == c;
    assert !StartsWith(after[k].code, "$");
  }

  // ---------------------------------------------------------------------------
  // Users

  /** `handleCreateUser`: `register` with the form's email, password and name;
      the form is cleared only when it succeeds. */
  function CreateUser(pn: Panel, newId: string, createdAt: string): (r: Panel)
    ensures var reg := Auth.Register(pn.auth, pn.newUser.email, pn.newUser.password, pn.newUser.name, newId, createdAt);
      && r.auth == reg.0
      && r.newUser == (if reg.1 then BlankUserForm else pn.newUser)
      && r == pn.(auth := r.auth, newUser := r.newUser)
  {
    var (after, ok) := Auth.Register(pn.auth, pn.newUser.email, pn.newUser.password, pn.newUser.name, newId, createdAt);
    pn.(auth := after, newUser := if ok then BlankUserForm else pn.newUser)
  }

  /** The role chosen in the form makes no difference: every account
      created here is an ordinary user. */
  lemma RoleFieldIgnored(pn: Panel, role: string, newId: string, createdAt: string)
    ensures CreateUser(pn.(newUser := pn.newUser.(role := role)), newId, createdAt).auth
         == CreateUser(pn, newId, createdAt).auth
    ensures forall u :: u in Auth.Users(CreateUser(pn, newId, createdAt).auth) && u !in Auth.Users(pn.auth) ==> u.role == "user"
  {
  }

  /** `handleDeleteUser`: asking to delete oneself is refused and arms
      nothing; any other id only arms the confirmation. */
  function RequestDeleteUser(pn: Panel, id: string): (r: Panel)
    requires pn.auth.session.Some?
    ensures id == pn.auth.session.value.id ==> r == pn
    ensures id != pn.auth.session.value.id ==> r == pn.(deleteConfirmId := Some(id))
  {
    if id == pn.auth.session.value.id then pn else pn.(deleteConfirmId := Some(id))
  }

  /** `confirmDeleteUser`: the armed id is deleted and disarmed. With
      nothing armed no user matches, and the list is written back as it
      was. */
  function ConfirmDeleteUser(pn: Panel): (r: Panel)
    ensures r.deleteConfirmId.None?
    ensures pn.deleteConfirmId.Some? ==> r.auth == Auth.DeleteUser(pn.auth, pn.deleteConfirmId.value)
    ensures pn.deleteConfirmId.None? ==> Auth.Users(r.auth) == Auth.Users(pn.auth)
    ensures r.auth.session == pn.auth.session && r.placeholders == pn.placeholders
  {
    match pn.deleteConfirmId
    case Some(id) => pn.(auth := Auth.DeleteUser(pn.auth, id), deleteConfirmId := None)
    case None => pn.(auth := pn.auth.(stored := Some(Auth.Users(pn.auth))))
  }

  /** The confirmation's cancel button disarms it and deletes nothing. */
  function CancelDeleteUser(pn: Panel): (r: Panel)
    ensures r.deleteConfirmId.None? && r == pn.(deleteConfirmId := None)
  {
    pn.(deleteConfirmId := None)
  }

  /** The armed id, if any, is never the signed-in administrator's. */
  ghost predicate ConfirmSafe(pn: Panel) {
    pn.auth.session.Some?
    && (pn.deleteConfirmId.Some? ==> pn.deleteConfirmId.value != pn.auth.session.value.id)
  }

  /** Every action of the page keeps the armed id away from the signed-in
      administrator. */
  lemma ActionsKeepConfirmSafe(pn: Panel, id: string, newId: string, createdAt: string, p: Documents.Placeholder)
    requires ConfirmSafe(pn)
    ensures ConfirmSafe(AddPlaceholder(pn, newId))
    ensures ConfirmSafe(StartEdit(pn, p))
    ensures ConfirmSafe(SaveEdit(pn, id))
    ensures ConfirmSafe(CancelEdit(pn))
    ensures ConfirmSafe(DeletePlaceholder(pn, id))
    ensures ConfirmSafe(CreateUser(pn, newId, createdAt))
    ensures ConfirmSafe(RequestDeleteUser(pn, id))
    ensures ConfirmSafe(ConfirmDeleteUser(pn))
    ensures ConfirmSafe(CancelDeleteUser(pn))
  {
  }

  /** Hence confirming a deletion never removes the signed-in
      administrator's own account. */
  lemma ConfirmNeverDeletesSelf(pn: Panel, u: Auth.User)
    requires ConfirmSafe(pn)
    requires u in Auth.Users(pn.auth) && u.id == pn.auth.session.value.id
    ensures u in Auth.Users(ConfirmDeleteUser(pn).auth)
  {
  }

  /** Arming another user's deletion and confirming it removes exactly that
      user's records. */
  lemma RequestThenConfirm(pn: Panel, id: string, u: Auth.User)
    requires pn.auth.session.Some? && id != pn.auth.session.value.id
    ensures var r := ConfirmDeleteUser(RequestDeleteUser(pn, id));
      u in Auth.Users(r.auth) <==> u in Auth.Users(pn.auth) && u.id != id
  {
  }
}

=== FILE: auth.dfy ===
/** Accounts and the session (`AuthContext.jsx`), and the demo accounts
    seeded at start-up (`main.jsx`). The user list lives in the browser's
    storage slot `dms_users`, which is either empty (`None`: never written,
    or an empty string) or holds a list; an unset slot reads as no users. */
module Auth {
  import opened Text
  import Lists

  datatype User = User(id: string, email: string, password: string, name: string, role: string, createdAt: string)

  /** The logged-in user as kept in memory and in `dms_user`. A session never
      carries a password, except an empty one a profile update put there. */
  datatype Session = Session(id: string, email: string, name: string, role: string, password: Option<string>)

  datatype AuthState = AuthState(stored: Option<seq<User>>, session: Option<Session>, isAdmin: bool)

  /** `JSON.parse(localStorage.getItem('dms_users') || '[]')`. */
  function Users(st: AuthState): seq<User> {
    st.stored.GetOr([])
  }

  /** `isAdmin` is the session's role being "admin". */
  ghost predicate AdminFlagConsistent(st: AuthState) {
    st.isAdmin <==> st.session.Some? && st.session.value.role == "admin"
  }

  ghost predicate DistinctEmails(users: seq<User>) {
    forall i, j :: 0 <= i < j < |users| ==> users[i].email != users[j].email
  }

  /** The first user with these credentials, as `Array.prototype.find`. */
  function FindCredentials(users: seq<User>, email: string, password: string): (r: Option<nat>)
    ensures r.Some? ==> r.value < |users| && users[r.value].email == email && users[r.value].password == password
    ensures r.Some? ==> forall j :: 0 <= j < r.value ==> !(users[j].email == email && users[j].password == password)
    ensures r.None? ==> forall j :: 0 <= j < |users| ==> !(users[j].email == email && users[j].password == password)
    decreases |users|
  {
    if |users| == 0 then None
    else if users[0].email == email && users[0].password == password then Some(0)
    else
      match FindCredentials(users[1..], email, password)
      case None => None
      case Some(k) => Some(k + 1)
  }

  /** Whether some user already has the email. */
  function EmailTaken(users: seq<User>, email: string): (r: bool)
    ensures r <==> exists i :: 0 <= i < |users| && users[i].email == email
    decreases |users|
  {
    if |users| == 0 then false
    else users[0].email == email || EmailTaken(users[1..], email)
  }

  function SessionOf(u: User): Session {
    Session(u.id, u.email, u.name, u.role, None)
  }

  /** Mounting the provider: the stored session, and `isAdmin` derived from
      its role. */
  function Mount(stored: Option<seq<User>>, storedSession: Option<Session>): (st: AuthState)
    ensures AdminFlagConsistent(st)
    ensures st.session == storedSession && st.stored == stored
  {
    AuthState(stored, storedSession, storedSession.Some? && storedSession.value.role == "admin")
  }

  /** `login`: succeeds exactly when some user has both the email and the
      password; the session then holds the first such user without the
      password. A failed login changes nothing. */
  function Login(st: AuthState, email: string, password: string): (r: (AuthState, bool))
    ensures r.1 <==> exists i :: 0 <= i < |Users(st)| && Users(st)[i].email == email && Users(st)[i].password == password
    ensures !r.1 ==> r.0 == st
    ensures r.1 ==>
      && r.0.stored == st.stored && r.0.session.Some?
      && r.0.session.value.email == email && r.0.session.value.password.None?
      && AdminFlagConsistent(r.0)
    ensures r.1 ==>
      exists i :: && 0 <= i < |Users(st)|
                  && Users(st)[i].email == email && Users(st)[i].password == password
                  && (forall j :: 0 <= j < i ==> !(Users(st)[j].email == email && Users(st)[j].password == password))
                  && r.0.session == Some(SessionOf(Users(st)[i]))
                  && r.0.isAdmin == (Users(st)[i].role == "admin")
  {
    match FindCredentials(Users(st), email, password)
    case None => (st, false)
    case Some(i) =>
      var u := Users(st)[i];
      var r := (AuthState(st.stored, Some(SessionOf(u)), u.role == "admin"), true);
      assert r.0.session == Some(SessionOf(Users(st)[i]));
      r
  }

  /** `logout`. */
  function Logout(st: AuthState): (r: AuthState)
    ensures r.session.None? && !r.isAdmin && r.stored == st.stored
    ensures AdminFlagConsistent(r)
  {
    AuthState(st.stored, None, false)
  }

  /** `register`: refused (false, nothing written) when the email is taken;
      otherwise exactly one user with role "user" is appended. */
  function Register(st: AuthState, email: string, password: string, name: string, newId: string, createdAt: string): (r: (AuthState, bool))
    ensures r.1 <==> !EmailTaken(Users(st), email)
    ensures !r.1 ==> r.0 == st
    ensures r.1 ==> r.0.stored == Some(Users(st) + [User(newId, email, password, name, "user", createdAt)])
    ensures r.0.session == st.session && r.0.isAdmin == st.isAdmin
  {
    var users := Users(st);
    if EmailTaken(users, email) then (st, false)
    else (st.(stored := Some(users + [User(newId, email, password, name, "user", createdAt)])), true)
  }

  /** `deleteUser`: every user with the id goes, the others keep their
      order. The session is not touched. */
  function DeleteUser(st: AuthState, userId: string): (r: AuthState)
    ensures r.stored.Some?
    ensures Lists.IsSubsequence(r.stored.value, Users(st))
    ensures forall u :: u in r.stored.value <==> u in Users(st) && u.id != userId
    ensures forall u: User :: u.id != userId ==> multiset(r.stored.value)[u] == multiset(Users(st))[u]
    ensures r.session == st.session && r.isAdmin == st.isAdmin
  {
    var kept := Lists.Filter(Users(st), (u: User) => u.id != userId);
    forall u ensures u in kept <==> u in Users(st) && u.id != userId {
      Lists.FilterKeepsMembers(Users(st), (u: User) => u.id != userId, u);
    }
    st.(stored := Some(kept))
  }

  /** The fields a profile update may carry; absent ones are `None`. */
  datatype ProfilePatch = ProfilePatch(name: Option<string>, email: Option<string>, password: Option<string>)

  function MergeUser(u: User, p: ProfilePatch): User {
    u.(name := p.name.GetOr(u.name), email := p.email.GetOr(u.email), password := p.password.GetOr(u.password))
  }

  /** `{ ...session, ...updates }` with a truthy password then deleted. */
  function MergeSession(s: Session, p: ProfilePatch): (r: Session)
    ensures r.id == s.id && r.role == s.role
    ensures r.name == p.name.GetOr(s.name) && r.email == p.email.GetOr(s.email)
    ensures r.password.Some? ==> !Truthy(r.password.value)
    ensures p.password.Some? ==> r.password == (if Truthy(p.password.value) then None else p.password)
    ensures p.password.None? ==> r.password == (if s.password.Some? && Truthy(s.password.value) then None else s.password)
  {
    var merged := s.(name := p.name.GetOr(s.name), email := p.email.GetOr(s.email),
                     password := if p.password.Some? then p.password else s.password);
    if merged.password.Some? && Truthy(merged.password.value) then merged.(password := None) else merged
  }

  /** `updateProfile`: the patch goes into every user with the id and no
      other, with no check that a new email is free; the session takes it
      only when it is that user's, and never keeps a non-empty password. */
  function UpdateProfile(st: AuthState, userId: string, p: ProfilePatch): (r: AuthState)
    ensures r.stored.Some? && |r.stored.value| == |Users(st)|
    ensures forall i :: 0 <= i < |Users(st)| && Users(st)[i].id != userId ==> r.stored.value[i] == Users(st)[i]
    ensures forall i :: 0 <= i < |Users(st)| && Users(st)[i].id == userId ==> r.stored.value[i] == MergeUser(Users(st)[i], p)
    ensures st.session.None? || st.session.value.id != userId ==> r.session == st.session
    ensures st.session.Some? && st.session.value.id == userId ==> r.session == Some(MergeSession(st.session.value, p))
    ensures r.isAdmin == st.isAdmin
    ensures AdminFlagConsistent(st) ==> AdminFlagConsistent(r)
  {
    var users := Users(st);
    var updated := seq(|users|, i requires 0 <= i < |users| =>
      if users[i].id == userId then MergeUser(users[i], p) else users[i]);
    var session := match st.session
      case Some(s) => if s.id == userId then Some(MergeSession(s, p)) else st.session
      case None => None;
    AuthState(Some(updated), session, st.isAdmin)
  }

  // ---------------------------------------------------------------------------
  // Invariants and relations between the operations

  /** Registration keeps emails pairwise distinct. */
  lemma RegisterKeepsEmailsDistinct(st: AuthState, email: string, password: string, name: string, newId: string, createdAt: string)
    requires DistinctEmails(Users(st))
    ensures DistinctEmails(Users(Register(st, email, password, name, newId, createdAt).0))
  {
  }

  /** A profile update can give two accounts the same email. */
  lemma UpdateProfileCanDuplicateEmails()
    ensures var a := User("1", "a@x", "p", "A", "user", "");
      var b := User("2", "b@x", "q", "B", "user", "");
      var st := AuthState(Some([a, b]), None, false);
      DistinctEmails(Users(st))
      && !DistinctEmails(Users(UpdateProfile(st, "2", ProfilePatch(None, Some("a@x"), None))))
  {
    var a := User("1", "a@x", "p", "A", "user", "");
    var b := User("2", "b@x", "q", "B", "user", "");
    var st := AuthState(Some([a, b]), None, false);
    var after := Users(UpdateProfile(st, "2", ProfilePatch(None, Some("a@x"), None)));
    assert after[0].email == after[1].email;
  }

  /** Every operation keeps `isAdmin` in step with the session's role. */
  lemma OperationsKeepAdminFlag(st: AuthState, email: string, password: string, name: string,
                                id: string, createdAt: string, p: ProfilePatch)
    requires AdminFlagConsistent(st)
    ensures AdminFlagConsistent(Login(st, email, password).0)
    ensures AdminFlagConsistent(Logout(st))
    ensures AdminFlagConsistent(Register(st, email, password, name, id, createdAt).0)
    ensures AdminFlagConsistent(DeleteUser(st, id))
    ensures AdminFlagConsistent(UpdateProfile(st, id, p))
  {
  }

  /** A freshly registered account can log in with its credentials, unless
      an earlier account has the same email and password. */
  lemma RegisterThenLogin(st: AuthState, email: string, password: string, name: string, newId: string, createdAt: string)
    requires !EmailTaken(Users(st), email)
    ensures var after := Register(st, email, password, name, newId, createdAt).0;
      var r := Login(after, email, password);
      r.1 && r.0.session == Some(Session(newId, email, name, "user", None)) && !r.0.isAdmin
  {
    var after := Register(st, email, password, name, newId, createdAt).0;
    var users := Users(after);
    assert users[|users| - 1].email == email && users[|users| - 1].password == password;
  }

  /** A user who changes only the name and email keeps the password. */
  lemma BlankPasswordKeepsPassword(st: AuthState, userId: string, name: string, email: string, i: nat)
    requires i < |Users(st)|
    ensures Users(UpdateProfile(st, userId, ProfilePatch(Some(name), Some(email), None)))[i].password == Users(st)[i].password
  {
  }

  // ---------------------------------------------------------------------------
  // main.jsx

  const DemoUsers: seq<User> := [
    User("1", "admin@example.com", "admin123", "Admin User", "admin", ""),
    User("2", "user@example.com", "user123", "Regular User", "user", "")
  ]

  /** The demo accounts, stamped with the start-up time. */
  function Demo(now: string): seq<User> {
    seq(|DemoUsers|, i requires 0 <= i < |DemoUsers| => DemoUsers[i].(createdAt := now))
  }

  /** `initDemoUsers`: the slot is seeded only when it is empty; a stored
      list, even an empty one, is kept. */
  function SeedDemoUsers(stored: Option<seq<User>>, now: string): (r: Option<seq<User>>)
    ensures stored.Some? ==> r == stored
    ensures stored.None? ==>
      && r.Some? && |r.value| == 2
      && r.value[0].id == "1" && r.value[1].id == "2"
      && DistinctEmails(r.value)
      && r.value[0].role == "admin" && r.value[1].role != "admin"
  {
    if stored.None? then Some(Demo(now)) else stored
  }

  /** Seeding twice is seeding once. */
  lemma SeedIdempotent(stored: Option<seq<User>>, now: string, later: string)
    ensures SeedDemoUsers(SeedDemoUsers(stored, now), later) == SeedDemoUsers(stored, now)
  {
  }

  /** After seeding an empty slot, the admin demo account logs in as an
      administrator. */
  lemma DemoAdminLogsIn(now: string)
    ensures var st := AuthState(SeedDemoUsers(None, now), None, false);
      var r := Login(st, "admin@example.com", "admin123");
      r.1 && r.0.isAdmin
  {
    var users := SeedDemoUsers(None, now).value;
    assert users[0].email == "admin@example.com" && users[0].password == "admin123";
  }
}

=== FILE: auth_page.dfy ===
/** The sign-in / sign-up form (`AuthPage.jsx`): its mode, its three fields,
    what a submit does to the account store and where it navigates. */
module AuthPage {
  import opened Text
  import Auth

  datatype Form = Form(isLogin: bool, email: string, password: string, name: string)

  const InitialForm := Form(true, "", "", "")

  datatype Submitted = Submitted(auth: Auth.AuthState, form: Form, navigateTo: Option<string>)

  /** `handleSubmit`. In login mode only `login` runs, and the page moves to
      "/" exactly when it succeeds; the fields stay. In sign-up mode only
      `register` runs; success switches to login mode with empty fields,
      failure keeps mode and fields. Signing up never signs in. */
  function Submit(st: Auth.AuthState, f: Form, newId: string, createdAt: string): (r: Submitted)
    ensures f.isLogin ==> r.auth == Auth.Login(st, f.email, f.password).0 && r.form == f
    ensures f.isLogin ==> (r.navigateTo == Some("/") <==> Auth.Login(st, f.email, f.password).1)
    ensures f.isLogin ==> r.navigateTo.None? || r.navigateTo == Some("/")
    ensures !f.isLogin ==> r.auth == Auth.Register(st, f.email, f.password, f.name, newId, createdAt).0
    ensures !f.isLogin ==> r.navigateTo.None? && r.auth.session == st.session
    ensures !f.isLogin && Auth.Register(st, f.email, f.password, f.name, newId, createdAt).1 ==> r.form == InitialForm
    ensures !f.isLogin && !Auth.Register(st, f.email, f.password, f.name, newId, createdAt).1 ==> r.form == f
  {
    if f.isLogin then
      var (after, ok) := Auth.Login(st, f.email, f.password);
      Submitted(after, f, if ok then Some("/") else None)
    else
      var (after, ok) := Auth.Register(st, f.email, f.password, f.name, newId, createdAt);
      Submitted(after, if ok then InitialForm else f, None)
  }

  /** The link under the form flips the mode and nothing else. */
  function Toggle(f: Form): (r: Form)
    ensures r.isLogin != f.isLogin
    ensures r.(isLogin := f.isLogin) == f
  {
    f.(isLogin := !f.isLogin)
  }

  /** The effect run whenever the session changes: a signed-in visitor is
      sent home. */
  function RedirectIfSignedIn(st: Auth.AuthState): (to: Option<string>)
    ensures to.Some? <==> st.session.Some?
    ensures to.Some? ==> to.value == "/"
  {
    if st.session.Some? then Some("/") else None
  }

  /** Signing up and then signing in with the same details: after a
      successful sign-up the form is back to its initial, empty state, and
      submitting the credentials typed in again succeeds and lands on "/". */
  lemma SignUpThenSignIn(st: Auth.AuthState, email: string, password: string, name: string,
                         newId: string, createdAt: string)
    requires !Auth.EmailTaken(Auth.Users(st), email)
    ensures var up := Submit(st, Form(false, email, password, name), newId, createdAt);
      && up.form == InitialForm
      && Submit(up.auth, Form(true, email, password, up.form.name), newId, createdAt).navigateTo == Some("/")
  {
    Auth.RegisterThenLogin(st, email, password, name, newId, createdAt);
  }
}

=== FILE: document_list.dfy ===
/** The signed-in user's document cards (`DocumentList.jsx`): which
    documents are listed, how a size is labelled, which link a card shows,
    and what its delete button removes. */
module DocumentList {
  import opened Text
  import Lists
  import Server
  import Documents
  import DocumentServerApi

  /** `userDocs`: the user's own documents, in stored order. */
  function UserDocs(docs: seq<Documents.Doc>, userId: string): (r: seq<Documents.Doc>)
    ensures Lists.IsSubsequence(r, docs)
    ensures forall d :: d in r <==> d in docs && d.userId == userId
    ensures forall d: Documents.Doc :: d.userId == userId ==> multiset(r)[d] == multiset(docs)[d]
  {
    var r := Lists.Filter(docs, (d: Documents.Doc) => d.userId == userId);
    forall d ensures d in r <==> d in docs && d.userId == userId {
      Lists.FilterKeepsMembers(docs, (d: Documents.Doc) => d.userId == userId, d);
    }
    r
  }

  // ---------------------------------------------------------------------------
  // formatFileSize

  const KiB := 1024
  const MiB := 1024 * 1024

  /** `(bytes / 1024).toFixed(1)` as a count of tenths: the nearest tenth,
      ties going up. */
  function KiloTenths(bytes: nat): (n: nat)
    ensures n * KiB <= bytes * 10 + KiB / 2 < (n + 1) * KiB
  {
    (bytes * 10 + KiB / 2) / KiB
  }

  /** The same for megabytes. */
  function MegaTenths(bytes: nat): (n: nat)
    ensures n * MiB <= bytes * 10 + MiB / 2 < (n + 1) * MiB
  {
    (bytes * 10 + MiB / 2) / MiB
  }

  /** A count of tenths written with one decimal. */
  function OneDecimal(tenths: nat): (r: string)
    ensures |r| >= 3 && r[|r| - 2] == '.'
    ensures forall i :: 0 <= i < |r| - 2 ==> IsDigit(r[i])
    ensures IsDigit(r[|r| - 1])
    ensures ParseDecimal(r[..|r| - 2]) * 10 + (r[|r| - 1] as int - '0' as int) == tenths
  {
    var whole := DecimalString(tenths / 10);
    var r := whole + "." + [DigitChar(tenths % 10)];
    assert r[..|r| - 2] == whole;
    ParseDecimalString(tenths / 10);
    r
  }

  /** `formatFileSize`: below 1024 the exact count of bytes; below 1 MiB
      kilobytes with one decimal; otherwise megabytes with one decimal. */
  function FormatFileSize(bytes: int): (r: string)
    ensures bytes < KiB ==> r == IntString(bytes) + " B"
    ensures KiB <= bytes < MiB ==> r == OneDecimal(KiloTenths(bytes)) + " KB"
    ensures MiB <= bytes ==> r == OneDecimal(MegaTenths(bytes)) + " MB"
  {
    if bytes < KiB then IntString(bytes) + " B"
    else if bytes < MiB then OneDecimal(KiloTenths(bytes)) + " KB"
    else OneDecimal(MegaTenths(bytes)) + " MB"
  }

  /** A byte count below 1024 reads back exactly from its label. */
  lemma SmallSizeReadsBack(bytes: nat)
    requires bytes < KiB
    ensures var r := FormatFileSize(bytes);
      && r[|r| - 2..] == " B"
      && (forall i :: 0 <= i < |r| - 2 ==> IsDigit(r[i]))
      && ParseDecimal(r[..|r| - 2]) == bytes
  {
    var r := FormatFileSize(bytes);
    assert r[..|r| - 2] == DecimalString(bytes);
    ParseDecimalString(bytes);
  }

  /** A kilobyte label is within half a tenth of the true size and lies
      between 1.0 and 1024.0. */
  lemma KiloLabelBounds(bytes: nat)
    requires KiB <= bytes < MiB
    ensures 10 <= KiloTenths(bytes) <= 10240
    ensures -KiB / 2 < KiloTenths(bytes) * KiB - bytes * 10 <= KiB / 2
  {
  }

  /** So a size one byte short of a mebibyte is labelled "1024.0 KB". */
  lemma JustUnderOneMegabyte()
    ensures FormatFileSize(MiB - 1) == "1024.0 KB"
  {
    assert KiloTenths(MiB - 1) == 10240;
    assert DecimalString(1024) == "1024";
  }

  // ---------------------------------------------------------------------------
  // The cards

  /** The link a card shows: the document's backend url when it has one,
      else the download route under the client's base URL. */
  function Link(doc: Documents.Doc, baseUrl: string): (r: string)
    ensures DocumentServerApi.OptionTruthy(doc.fileUrl) ==> r == doc.fileUrl.value
    ensures !DocumentServerApi.OptionTruthy(doc.fileUrl) ==> r == baseUrl + "/api/documents/" + doc.id + "/download"
  {
    if DocumentServerApi.OptionTruthy(doc.fileUrl) then doc.fileUrl.value
    else baseUrl + "/api/documents/" + doc.id + "/download"
  }

  datatype Card = Card(id: string, name: string, size: string, link: string)

  datatype View = NoDocumentsYet | Cards(cards: seq<Card>)

  function CardFor(doc: Documents.Doc, baseUrl: string): (c: Card)
    ensures c.id == doc.id && c.name == doc.name
    ensures c.size == FormatFileSize(doc.size) && c.link == Link(doc, baseUrl)
  {
    Card(doc.id, doc.name, FormatFileSize(doc.size), Link(doc, baseUrl))
  }

  /** The list: the empty state exactly when the user owns nothing, else one
      card per owned document, in order. */
  function ListView(docs: seq<Documents.Doc>, userId: string, baseUrl: string): (v: View)
    ensures v.NoDocumentsYet? <==> forall i :: 0 <= i < |docs| ==> docs[i].userId != userId
    ensures v.Cards? ==>
      && |v.cards| == |UserDocs(docs, userId)|
      && forall i :: 0 <= i < |v.cards| ==> v.cards[i] == CardFor(UserDocs(docs, userId)[i], baseUrl)
  {
    var mine := UserDocs(docs, userId);
    if |mine| == 0 then
      assert forall i :: 0 <= i < |docs| ==> docs[i].userId != userId by {
        forall i | 0 <= i < |docs| ensures docs[i].userId != userId {
          assert docs[i] in docs;
        }
      }
      NoDocumentsYet
    else
      assert mine[0] in mine;
      Cards(seq(|mine|, i requires 0 <= i < |mine| => CardFor(mine[i], baseUrl)))
  }

  /** A card's delete button removes the documents with that card's id. */
  function DeleteCard(docs: seq<Documents.Doc>, card: Card): (r: seq<Documents.Doc>)
    ensures Lists.IsSubsequence(r, docs)
    ensures forall d :: d in r <==> d in docs && d.id != card.id
    ensures forall d: Documents.Doc :: d.id != card.id ==> multiset(r)[d] == multiset(docs)[d]
  {
    Documents.DeleteDocument(docs, card.id)
  }

  /** Deleting from the list takes the document off every user's list and
      nothing else. */
  lemma DeleteRemovesFromList(docs: seq<Documents.Doc>, doc: Documents.Doc, userId: string, baseUrl: string)
    ensures forall d ::
      (d in UserDocs(DeleteCard(docs, CardFor(doc, baseUrl)), userId) <==> d in UserDocs(docs, userId) && d.id != doc.id)
  {
  }

  /** The card's link is the url the editor is pointed at. */
  lemma LinkIsEditorUrl(doc: Documents.Doc, mode: string, baseUrl: string)
    ensures Link(doc, baseUrl) == DocumentServerApi.FallbackConfig(doc, mode, baseUrl).url
  {
  }

  /** For a document the backend stores locally, with the client and the
      backend agreeing on the base URL, the card's link is the backend's
      download route, which serves the uploaded bytes. */
  lemma LinkDownloadsUpload(doc: Documents.Doc, st: Server.Store, o: Server.Origin, now: int, decode: string -> Bytes)
    requires !DocumentServerApi.OptionTruthy(doc.fileUrl)
    requires Server.ValidUpload(DocumentServerApi.RegistrationPayload(doc))
    ensures Link(doc, Server.BaseUrl(o)) == Server.DownloadUrl(o, doc.id)
    ensures var req := DocumentServerApi.RegistrationPayload(doc);
      Server.Download(Server.Upload(st, req, o, now, decode).store, doc.id) == Server.Serve(doc.name, decode(Server.DataPart(doc.fileData)))
  {
    Server.UploadDownloadRoundTrip(st, DocumentServerApi.RegistrationPayload(doc), o, now, decode);
  }
}

=== FILE: document_server_api.dfy ===
/** The browser's client of the document backend (`documentServer.js`): the
    editor key and file extension it derives for a document, its own
    handling of a save callback, and fetching a signed editor configuration,
    which registers the document with the backend when the backend does not
    know it and builds an unsigned configuration locally when all else
    fails. Network answers are inputs. */
module DocumentServerApi {
  import opened Text
  import Server
  import Documents

  /** The backend base URL: the build-time override, else the page origin. */
  function ClientBaseUrl(envBaseUrl: string, pageOrigin: string): (r: string)
    ensures Truthy(envBaseUrl) ==> r == envBaseUrl
    ensures !Truthy(envBaseUrl) ==> r == pageOrigin
  {
    OrElse(envBaseUrl, pageOrigin)
  }

  /** `getDocumentUrl`: a data URL is handed over as it is, anything else
      becomes "". */
  function DocumentUrl(fileData: string): (r: string)
    ensures Truthy(r) <==> StartsWith(fileData, "data:")
    ensures Truthy(r) ==> r == fileData
  {
    if Truthy(fileData) && StartsWith(fileData, "data:") then fileData else ""
  }

  // ---------------------------------------------------------------------------
  // Key and extension

  /** `generateDocumentKey`: the id, "_", and the last-modified time in
      milliseconds. */
  function GenerateDocumentKey(id: string, lastModified: int): (r: string)
    ensures StartsWith(r, id + "_")
  {
    var k := id + "_" + IntString(lastModified);
    assert k[..|id + "_"|] == id + "_";
    k
  }

  /** The client computes the same key as the backend for the same time,
      and the key changes exactly when the time does. */
  lemma ClientKeyMatchesServerKey(id: string, t1: int, t2: int)
    ensures GenerateDocumentKey(id, t1) == Server.DocumentKey(id, t1)
    ensures GenerateDocumentKey(id, t1) == GenerateDocumentKey(id, t2) <==> t1 == t2
  {
    Server.DocumentKeyChangesWithTime(id, t1, t2);
  }

  /** The client's MIME table, smaller than the backend's. */
  const ClientMimeTable: map<string, string> := map[
    "application/vnd.openxmlformats-officedocument.wordprocessingml.document" := "docx",
    "application/vnd.oasis.opendocument.text" := "odt",
    "application/msword" := "doc",
    "application/pdf" := "pdf"
  ]

  function ClientExtFromMime(mime: string): (r: string)
    ensures r in {"docx", "odt", "doc", "pdf"}
    ensures mime in ClientMimeTable ==> r == ClientMimeTable[mime]
    ensures mime !in ClientMimeTable ==> r == "docx"
  {
    if mime in ClientMimeTable then ClientMimeTable[mime] else "docx"
  }

  /** `getFileExtension`: the lowercased last '.'-piece of the name, which
      for a name without a dot is the whole name; the MIME table only when
      that piece is empty, i.e. for an empty name or one ending in '.'. */
  function GetFileExtension(filename: string, mime: string): (r: string)
    ensures '.' !in r && Truthy(r)
    ensures !Truthy(filename) || filename[|filename| - 1] == '.' ==> r == ClientExtFromMime(mime)
    ensures Truthy(filename) && filename[|filename| - 1] != '.' ==>
      && |r| <= |filename| && r == Lower(filename[|filename| - |r|..])
      && (|r| < |filename| ==> filename[|filename| - |r| - 1] == '.')
    ensures Truthy(filename) && '.' !in filename ==> r == Lower(filename)
  {
    if Truthy(filename) then
      var ext := Lower(AfterLast(filename, '.'));
      LastPieceExtension(filename);
      if Truthy(ext) then ext else ClientExtFromMime(mime)
    else ClientExtFromMime(mime)
  }

  /** `filename.split('.').pop().toLowerCase()`: dot-free, the lowered
      suffix after the last dot, and empty exactly when the name ends in a
      dot. */
  lemma LastPieceExtension(filename: string)
    requires Truthy(filename)
    ensures var ext := Lower(AfterLast(filename, '.'));
      && '.' !in ext && |ext| <= |filename| && ext == Lower(filename[|filename| - |ext|..])
      && (|ext| < |filename| ==> filename[|filename| - |ext| - 1] == '.')
      && (Truthy(ext) <==> filename[|filename| - 1] != '.')
      && ('.' !in filename ==> ext == Lower(filename))
  {
    var piece := AfterLast(filename, '.');
    Server.LowerKeepsDots(piece);
    assert filename[|filename| - |piece|..] == piece;
  }

  /** For a name with a proper extension the client and the backend agree. */
  lemma ExtensionAgreesWithServer(base: string, e: string, mime: string)
    requires '.' !in e && Truthy(e)
    ensures GetFileExtension(base + "." + e, mime) == Server.ExtOf(base + "." + e, mime)
    ensures GetFileExtension(base + "." + e, mime) == Lower(e)
  {
    var name := base + "." + e;
    Server.ExtOfDottedName(base, e, mime);
    assert name[|base|] == '.';
    Server.DotFreeSuffixIsLastPiece(base, e);
  }

  /** For a name without a dot they do not: the client takes the whole name
      as the extension where the backend consults its MIME table. */
  lemma DotlessNameDisagrees()
    ensures GetFileExtension("Report", "") == "report"
    ensures Server.ExtOf("Report", "") == "docx"
  {
    ReportHasNoDot();
    LowerReport();
    EmptyMimeIsUnknown();
  }

  lemma ReportHasNoDot()
    ensures '.' !in "Report"
  {
    var name := "Report";
    assert forall i :: 0 <= i < |name| ==> name[i] != '.';
  }

  lemma LowerReport()
    ensures Lower("Report") == "report"
  {
    var tail := "eport";
    assert "Report" == "R" + tail;
    assert forall i :: 0 <= i < |tail| ==> !IsUpper(tail[i]);
    LowerKeepsLowercase(tail);
    LowerAppend("R", tail);
    assert Lower("R") == "r";
  }

  lemma EmptyMimeIsUnknown()
    ensures "" !in Server.MimeTable
  {
  }

  // ---------------------------------------------------------------------------
  // handleCallback

  /** What fetching the callback's url and reading the body as a data URL
      produced. */
  datatype FetchRead = FetchedAndRead(dataUrl: string) | FetchThrew | ReadFailed

  /** `{success:true, fileData, error:0}`, `{success:false, error:1}`,
      `{error:0}`, or a rejected promise carrying `{success:false, error:1}`. */
  datatype ClientCallbackReply = SavedData(fileData: string) | SaveFailed | Acknowledged | Rejected

  /** `handleCallback`: a save status with a url yields the fetched data, a
      failure for a fetch that throws, and a rejection for a failed read;
      everything else is acknowledged. */
  function HandleCallback(body: Server.CallbackBody, outcome: FetchRead): (r: ClientCallbackReply)
    ensures r.SavedData? <==> Server.IsSaveStatus(body.status) && Truthy(body.url) && outcome.FetchedAndRead?
    ensures r.SavedData? ==> r.fileData == outcome.dataUrl
    ensures r == Acknowledged <==> !Server.IsSaveStatus(body.status) || !Truthy(body.url)
    ensures r == SaveFailed <==> Server.IsSaveStatus(body.status) && Truthy(body.url) && outcome.FetchThrew?
  {
    if Server.IsSaveStatus(body.status) && Truthy(body.url) then
      match outcome
      case FetchedAndRead(d) => SavedData(d)
      case FetchThrew => SaveFailed
      case ReadFailed => Rejected
    else Acknowledged
  }

  /** Where the client reports a saved callback, the backend (for a document
      it knows and a token it accepts) answers `{error:0}` and stores the
      fetched bytes with a new timestamp; where the client only acknowledges,
      the backend acknowledges and changes nothing. */
  lemma CallbackAgreesWithServer(st: Server.Store, id: string, authorization: string, body: Server.CallbackBody,
                                 tokenValid: string -> bool, bytes: Bytes, dataUrl: string, now: int)
    requires id in st.metas
    requires var t := Server.BearerToken(authorization, body); !Truthy(t) || tokenValid(t)
    ensures var out := Server.Callback(st, id, authorization, body, tokenValid, Server.Fetched(bytes), now);
      var meta := st.metas[id];
      && (HandleCallback(body, FetchedAndRead(dataUrl)).SavedData? ==>
            out == Server.Step(Server.Store(st.metas[id := meta.(updatedAt := now)],
                                            st.blobs[Server.BlobKey(id, meta.ext) := bytes]),
                               Server.CallbackReply(200, 0)))
      && (HandleCallback(body, FetchedAndRead(dataUrl)).Acknowledged? ==>
            out == Server.Step(st, Server.CallbackReply(200, 0)))
  {
  }

  // ---------------------------------------------------------------------------
  // fetchSignedConfig

  /** The requests the client sends to the backend. */
  datatype Request = GetConfig(id: string) | PostDocument(payload: Server.UploadRequest)

  /** An answer to a configuration request: a status with the parsed
      `{config, token}` body when it parsed, or a thrown network error. */
  datatype ConfigAnswer = Answered(status: int, body: Option<(Server.EditorConfig, string)>) | Unreachable

  /** What the registering POST produced: an ok status, another status, or a
      thrown error. */
  datatype PostAnswer = PostOk | PostNotOk | PostThrew

  predicate Ok(status: int) {
    200 <= status <= 299
  }

  /** The configuration handed to the editor; the token is `null` for the
      locally built one. */
  datatype ConfigResult = ConfigResult(config: Server.EditorConfig, token: Option<string>)

  datatype Fetched = Fetched(requests: seq<Request>, result: ConfigResult)

  function OptionTruthy(s: Option<string>): bool {
    s.Some? && Truthy(s.value)
  }

  /** The upload body the client sends to register a document it holds. */
  function RegistrationPayload(doc: Documents.Doc): (p: Server.UploadRequest)
    ensures p.id == doc.id && p.name == doc.name && p.mime == doc.mime
    ensures Truthy(p.base64) <==> Truthy(doc.fileData)
    ensures Truthy(p.base64) ==> p.base64 == doc.fileData
    ensures Truthy(p.fileUrl) <==> OptionTruthy(doc.fileUrl)
    ensures Truthy(p.fileUrl) ==> p.fileUrl == doc.fileUrl.value
  {
    Server.UploadRequest(doc.id, doc.name, doc.mime,
      if Truthy(doc.fileData) then doc.fileData else "",
      if OptionTruthy(doc.fileUrl) then doc.fileUrl.value else "")
  }

  /** The configuration built in the browser when no signed one could be
      had. */
  function FallbackConfig(doc: Documents.Doc, mode: string, baseUrl: string): (c: Server.EditorConfig)
    ensures c.permissions.edit <==> mode == "edit"
    ensures c.permissions.download && c.permissions.printing && c.permissions.review && c.permissions.comment
    ensures c.mode == mode && c.title == doc.name
    ensures c.fileType == GetFileExtension(doc.name, doc.mime)
    ensures c.documentType == Server.DocumentTypeFromExt(c.fileType)
    ensures OptionTruthy(doc.fileUrl) ==> c.url == doc.fileUrl.value
    ensures !OptionTruthy(doc.fileUrl) ==> c.url == baseUrl + "/api/documents/" + doc.id + "/download"
    ensures c.callbackUrl == baseUrl + "/api/documents/" + doc.id + "/callback"
    ensures Truthy(c.userId) && (Truthy(doc.userId) ==> c.userId == doc.userId)
    ensures !Truthy(doc.userId) ==> c.userId == "user1"
    ensures c.key == GenerateDocumentKey(doc.id, doc.lastModified)
  {
    var ext := GetFileExtension(doc.name, doc.mime);
    Server.EditorConfig(
      ext, GenerateDocumentKey(doc.id, doc.lastModified), doc.name,
      if OptionTruthy(doc.fileUrl) then doc.fileUrl.value else baseUrl + "/api/documents/" + doc.id + "/download",
      Server.Permissions(mode == "edit", true, true, true, true),
      Server.DocumentTypeFromExt(ext), mode,
      baseUrl + "/api/documents/" + doc.id + "/callback",
      OrElse(doc.userId, "user1"))
  }

  /** Whether a configuration answer is usable: ok and parsed. */
  predicate Usable(a: ConfigAnswer) {
    a.Answered? && Ok(a.status) && a.body.Some?
  }

  /** `fetchSignedConfig`. The configuration is requested once; a 404 for a
      document that carries data or a url makes the client register it and,
      when the registration is answered ok, request the configuration once
      more. The last answer's signed configuration is used when it is ok and
      parses; in every other case the local fallback is used, with no
      token. */
  function FetchSignedConfig(doc: Documents.Doc, mode: string, baseUrl: string,
                             first: ConfigAnswer, post: PostAnswer, second: ConfigAnswer): (f: Fetched)
    ensures 1 <= |f.requests| <= 3 && f.requests[0] == GetConfig(doc.id)
    ensures |f.requests| > 1 <==>
      first.Answered? && first.status == 404 && (Truthy(doc.fileData) || OptionTruthy(doc.fileUrl))
    ensures |f.requests| > 1 ==> f.requests[1] == PostDocument(RegistrationPayload(doc))
    ensures |f.requests| == 3 <==> |f.requests| > 1 && post == PostOk
    ensures |f.requests| == 3 ==> f.requests[2] == GetConfig(doc.id)
    ensures var last := if |f.requests| == 3 then second else first;
      && (Usable(last) ==> f.result == ConfigResult(last.body.value.0, Some(last.body.value.1)))
      && (!Usable(last) ==> f.result == ConfigResult(FallbackConfig(doc, mode, baseUrl), None))
  {
    var register := first.Answered? && first.status == 404 && (Truthy(doc.fileData) || OptionTruthy(doc.fileUrl));
    var requests :=
      if !register then [GetConfig(doc.id)]
      else if post == PostOk then [GetConfig(doc.id), PostDocument(RegistrationPayload(doc)), GetConfig(doc.id)]
      else [GetConfig(doc.id), PostDocument(RegistrationPayload(doc))];
    var last := if register && post == PostOk then second else first;
    var result :=
      if Usable(last) then ConfigResult(last.body.value.0, Some(last.body.value.1))
      else ConfigResult(FallbackConfig(doc, mode, baseUrl), None);
    Fetched(requests, result)
  }

  /** A document the client registers is accepted by the backend when its
      id, name and type are present, and from then on the backend issues a
      configuration for it. */
  lemma RegistrationIsAccepted(doc: Documents.Doc, st: Server.Store, o: Server.Origin, now: int,
                               decode: string -> Bytes, sign: Server.EditorConfig -> string)
    requires Truthy(doc.id) && Truthy(doc.name) && Truthy(doc.mime)
    requires Truthy(doc.fileData) || OptionTruthy(doc.fileUrl)
    ensures Server.ValidUpload(RegistrationPayload(doc))
    ensures Server.Upload(st, RegistrationPayload(doc), o, now, decode).reply.Uploaded?
    ensures Server.Config(Server.Upload(st, RegistrationPayload(doc), o, now, decode).store, doc.id, o, sign).Issued?
  {
  }

  /** A document uploaded while the backend was reachable keeps the backend's
      own download route as its `fileUrl`. Should the backend later lose the
      document, the registration sends that route back as an external URL,
      which wins over the data: no bytes are stored, and the download route
      answers with a redirect to itself. */
  lemma ReRegistrationRedirectsToItself(file: Documents.FileInfo, userId: string, newId: string, now: int,
                                        dataUrl: string, o: Server.Origin, st: Server.Store, lost: Server.Store,
                                        later: int, decode: string -> Bytes)
    requires Truthy(newId) && Truthy(file.name) && Truthy(file.mime) && Truthy(dataUrl)
    ensures var up := Server.Upload(st, Server.UploadRequest(newId, file.name, file.mime, dataUrl, ""), o, now, decode);
      && up.reply.Uploaded?
      && var doc := Documents.UploadedDoc(file, userId, newId, now, dataUrl,
                                          Documents.BackendOk(up.reply.id, up.reply.downloadUrl));
      && var again := Server.Upload(lost, RegistrationPayload(doc), o, later, decode);
      && again.reply.Uploaded?
      && again.store.blobs == lost.blobs
      && Server.Download(again.store, newId) == Server.Redirect(Server.DownloadUrl(o, newId))
  {
    var req := Server.UploadRequest(newId, file.name, file.mime, dataUrl, "");
    var up := Server.Upload(st, req, o, now, decode);
    var doc := Documents.UploadedDoc(file, userId, newId, now, dataUrl,
                                     Documents.BackendOk(up.reply.id, up.reply.downloadUrl));
    var url := Server.DownloadUrl(o, newId);
    assert up.reply.downloadUrl == url;
    assert url[|url| - 1] == 'd';
    var payload := RegistrationPayload(doc);
    assert payload.fileUrl == url;
    Server.ExternalUploadRedirects(lost, payload, o, later, decode);
  }

  /** The registration body that restores the document: whenever the client
      holds the document's data it sends the data alone, so the backend
      stores the bytes instead of a pointer that may lead back to itself. */
  function RestoringPayload(doc: Documents.Doc): (p: Server.UploadRequest)
    ensures p.id == doc.id && p.name == doc.name && p.mime == doc.mime
    ensures Truthy(p.base64) <==> Truthy(doc.fileData)
    ensures Truthy(p.base64) ==> p.base64 == doc.fileData && !Truthy(p.fileUrl)
    ensures !Truthy(doc.fileData) ==> p == RegistrationPayload(doc)
    ensures Server.ValidUpload(p) <==> Server.ValidUpload(RegistrationPayload(doc))
  {
    var q := RegistrationPayload(doc);
    if Truthy(doc.fileData) then q.(fileUrl := "") else q
  }

  /** With the restoring body, a registered document that carries its data is
      served from the backend's own storage, whatever `fileUrl` it kept. */
  lemma RestoringPayloadServesData(doc: Documents.Doc, st: Server.Store, o: Server.Origin, now: int,
                                   decode: string -> Bytes)
    requires Truthy(doc.id) && Truthy(doc.name) && Truthy(doc.mime) && Truthy(doc.fileData)
    ensures Server.Download(Server.Upload(st, RestoringPayload(doc), o, now, decode).store, doc.id)
      == Server.Serve(doc.name, decode(Server.DataPart(doc.fileData)))
  {
    Server.UploadDownloadRoundTrip(st, RestoringPayload(doc), o, now, decode);
  }

  /** The locally built configuration is the one the backend would sign for
      the registered document, up to the user, provided the client and the
      backend agree on the base URL and on the time, the document is opened
      for editing, and its name carries a proper extension. */
  lemma FallbackMatchesServerConfig(base: string, e: string, doc: Documents.Doc, st: Server.Store,
                                    o: Server.Origin, decode: string -> Bytes,
                                    sign: Server.EditorConfig -> string)
    requires doc.name == base + "." + e && '.' !in e && Truthy(e)
    requires Truthy(doc.id) && Truthy(doc.mime)
    requires Truthy(doc.fileData) || OptionTruthy(doc.fileUrl)
    ensures var after := Server.Upload(st, RegistrationPayload(doc), o, doc.lastModified, decode).store;
      var issued := Server.Config(after, doc.id, o, sign);
      issued.Issued?
      && FallbackConfig(doc, "edit", Server.BaseUrl(o)).(userId := "user1") == issued.config
  {
    ExtensionAgreesWithServer(base, e, doc.mime);
    assert Truthy(doc.name) by {
      assert |doc.name| > |base|;
    }
    ClientKeyMatchesServerKey(doc.id, doc.lastModified, doc.lastModified);
  }
}

=== FILE: documents.dfy ===
/** The client's document and placeholder lists (`DocumentContext.jsx`):
    upload validation, the list updates behind saving and deleting a
    document, placeholder add/update/delete, and the default placeholders
    seeded on first use. Reading the file, the backend request, the clock and
    freshly minted ids are inputs. */
module Documents {
  import opened Text
  import Lists

  // ---------------------------------------------------------------------------
  // Documents

  /** A stored document. Timestamps are milliseconds; `serverId` and
      `fileUrl` are present only once the backend accepted the upload. */
  datatype Doc = Doc(
    id: string, name: string, mime: string, size: int, userId: string, content: string,
    fileData: string, uploadedAt: int, lastModified: int,
    serverId: Option<string>, fileUrl: Option<string>)

  /** The browser `File` handed to the upload. */
  datatype FileInfo = FileInfo(name: string, mime: string, size: int)

  /** What reading the file as a data URL produced. */
  datatype ReadOutcome = ReadOk(dataUrl: string) | ReadFailed

  /** What the backend upload request produced: an ok answer with its body,
      a non-ok answer, or a thrown network error. */
  datatype BackendOutcome = BackendOk(id: string, downloadUrl: string) | BackendNotOk | BackendUnreachable

  const DocxMime := "application/vnd.openxmlformats-officedocument.wordprocessingml.document"
  const OdtMime := "application/vnd.oasis.opendocument.text"

  predicate AllowedUploadType(mime: string) {
    mime == DocxMime || mime == OdtMime
  }

  /** The simulated text view every uploaded document starts with. */
  function InitialContent(name: string): string {
    "Document: " + name + SimulatedView
  }

  /** The fixed text that follows the document's name in that view. */
  const SimulatedView: string :=
    "\n      \n"
    + "[This is a simulated text view of the uploaded binary document. In a production environment with full Collabora Online integration, the actual document content and formatting would appear here.]\n\n"
    + "Section 1: Introduction\n"
    + "This Agreement is made on $date.today between $company.name and $user.name.\n\n"
    + "Section 2: Terms\n"
    + "The total value of this contract is $amount.total.\n      "

  datatype UploadResult = UploadResult(accepted: bool, docs: seq<Doc>)

  /** The document an accepted, successfully read upload appends. */
  function UploadedDoc(file: FileInfo, userId: string, newId: string, now: int, dataUrl: string,
                       backend: BackendOutcome): (d: Doc)
    ensures d.id == newId && d.userId == userId
    ensures d.name == file.name && d.mime == file.mime && d.size == file.size
    ensures d.fileData == dataUrl && d.uploadedAt == now && d.lastModified == now
    ensures d.serverId.Some? <==> backend.BackendOk?
    ensures d.fileUrl.Some? <==> backend.BackendOk?
    ensures backend.BackendOk? ==> d.serverId == Some(backend.id) && d.fileUrl == Some(backend.downloadUrl)
  {
    var local := Doc(newId, file.name, file.mime, file.size, userId, InitialContent(file.name),
                     dataUrl, now, now, None, None);
    match backend
    case BackendOk(sid, url) => local.(serverId := Some(sid), fileUrl := Some(url))
    case _ => local
  }

  /** `uploadDocument`. Any type outside the docx/odt pair is refused and
      nothing is added. An accepted file answers true at once; once it has
      been read, exactly one document is appended after the existing ones.
      A failed read appends nothing. */
  function UploadDocument(docs: seq<Doc>, file: FileInfo, userId: string, newId: string, now: int,
                          read: ReadOutcome, backend: BackendOutcome): (r: UploadResult)
    ensures !AllowedUploadType(file.mime) ==> r == UploadResult(false, docs)
    ensures AllowedUploadType(file.mime) ==> r.accepted
    ensures AllowedUploadType(file.mime) && read.ReadFailed? ==> r.docs == docs
    ensures AllowedUploadType(file.mime) && read.ReadOk? ==>
      r.docs == docs + [UploadedDoc(file, userId, newId, now, read.dataUrl, backend)]
  {
    if !AllowedUploadType(file.mime) then UploadResult(false, docs)
    else
      match read
      case ReadFailed => UploadResult(true, docs)
      case ReadOk(dataUrl) => UploadResult(true, docs + [UploadedDoc(file, userId, newId, now, dataUrl, backend)])
  }

  /** The document after a save: new content, new data only when some was
      given, and a fresh timestamp. */
  function Saved(d: Doc, content: string, fileData: string, now: int): Doc {
    d.(content := content, fileData := if Truthy(fileData) then fileData else d.fileData, lastModified := now)
  }

  /** `updateDocument`: every document with the id is saved and all others
      are left as they were; the open document follows when it is the one
      saved. */
  function UpdateDocument(docs: seq<Doc>, current: Option<Doc>, docId: string, content: string,
                          fileData: string, now: int): (r: (seq<Doc>, Option<Doc>))
    ensures |r.0| == |docs|
    ensures forall i :: 0 <= i < |docs| && docs[i].id != docId ==> r.0[i] == docs[i]
    ensures forall i :: 0 <= i < |docs| && docs[i].id == docId ==>
      && r.0[i].content == content && r.0[i].lastModified == now
      && r.0[i].fileData == (if Truthy(fileData) then fileData else docs[i].fileData)
      && r.0[i].(content := docs[i].content, fileData := docs[i].fileData, lastModified := docs[i].lastModified) == docs[i]
    ensures current.None? || current.value.id != docId ==> r.1 == current
    ensures current.Some? && current.value.id == docId ==>
      && r.1.Some? && r.1.value.content == content && r.1.value.id == docId
      && r.1.value.lastModified == now
      && r.1.value.fileData == (if Truthy(fileData) then fileData else current.value.fileData)
      && r.1.value.(content := current.value.content, fileData := current.value.fileData,
                    lastModified := current.value.lastModified) == current.value
  {
    var updated := seq(|docs|, i requires 0 <= i < |docs| =>
      if docs[i].id == docId then Saved(docs[i], content, fileData, now) else docs[i]);
    var cur := match current
      case Some(c) => if c.id == docId then Some(Saved(c, content, fileData, now)) else current
      case None => None;
    (updated, cur)
  }

  /** `deleteDocument`: exactly the documents with the id go; the rest stay
      in order. */
  function DeleteDocument(docs: seq<Doc>, docId: string): (r: seq<Doc>)
    ensures Lists.IsSubsequence(r, docs)
    ensures forall d :: d in r <==> d in docs && d.id != docId
    ensures forall d: Doc :: d.id != docId ==> multiset(r)[d] == multiset(docs)[d]
  {
    var r := Lists.Filter(docs, (d: Doc) => d.id != docId);
    forall d ensures d in r <==> d in docs && d.id != docId {
      Lists.FilterKeepsMembers(docs, (d: Doc) => d.id != docId, d);
    }
    r
  }

  // ---------------------------------------------------------------------------
  // Placeholders

  datatype Placeholder = Placeholder(id: string, code: string, category: string, templateType: string, demoValue: string)

  /** The four fields of the admin's new-placeholder form. */
  datatype PlaceholderFields = PlaceholderFields(code: string, category: string, templateType: string, demoValue: string)

  /** A partial placeholder, merged with object spread: present fields win. */
  datatype PlaceholderPatch = PlaceholderPatch(
    id: Option<string>, code: Option<string>, category: Option<string>,
    templateType: Option<string>, demoValue: Option<string>)

  const EmptyPatch := PlaceholderPatch(None, None, None, None, None)

  /** The patch holding every field of `p`, as the editor form starts out. */
  function FullPatch(p: Placeholder): PlaceholderPatch {
    PlaceholderPatch(Some(p.id), Some(p.code), Some(p.category), Some(p.templateType), Some(p.demoValue))
  }

  /** `{ ...p, ...u }`. */
  function Merge(p: Placeholder, u: PlaceholderPatch): (r: Placeholder)
    ensures u == EmptyPatch ==> r == p
    ensures u.id.None? ==> r.id == p.id
    ensures u.code.None? ==> r.code == p.code
    ensures u.category.None? ==> r.category == p.category
    ensures u.templateType.None? ==> r.templateType == p.templateType
    ensures u.demoValue.None? ==> r.demoValue == p.demoValue
    ensures u.id.Some? ==> r.id == u.id.value
    ensures u.code.Some? ==> r.code == u.code.value
    ensures u.category.Some? ==> r.category == u.category.value
    ensures u.templateType.Some? ==> r.templateType == u.templateType.value
    ensures u.demoValue.Some? ==> r.demoValue == u.demoValue.value
  {
    Placeholder(u.id.GetOr(p.id), u.code.GetOr(p.code), u.category.GetOr(p.category),
                u.templateType.GetOr(p.templateType), u.demoValue.GetOr(p.demoValue))
  }

  /** Saving an untouched editor form changes nothing; merging the same
      patch twice is merging it once. */
  lemma MergeLaws(p: Placeholder, q: Placeholder, u: PlaceholderPatch)
    ensures Merge(p, FullPatch(p)) == p
    ensures Merge(p, FullPatch(q)) == q
    ensures Merge(Merge(p, u), u) == Merge(p, u)
  {
  }

  /** `addPlaceholder`: the form's fields plus a new id, appended. */
  function AddPlaceholder(ps: seq<Placeholder>, f: PlaceholderFields, newId: string): (r: seq<Placeholder>)
    ensures |r| == |ps| + 1 && r[..|ps|] == ps
    ensures r[|ps|] == Placeholder(newId, f.code, f.category, f.templateType, f.demoValue)
  {
    ps + [Placeholder(newId, f.code, f.category, f.templateType, f.demoValue)]
  }

  /** `updatePlaceholder`: the patch is merged into the placeholders with
      the id and into no other. */
  function UpdatePlaceholder(ps: seq<Placeholder>, id: string, u: PlaceholderPatch): (r: seq<Placeholder>)
    ensures |r| == |ps|
    ensures forall i :: 0 <= i < |ps| && ps[i].id != id ==> r[i] == ps[i]
    ensures forall i :: 0 <= i < |ps| && ps[i].id == id ==> r[i] == Merge(ps[i], u)
  {
    seq(|ps|, i requires 0 <= i < |ps| => if ps[i].id == id then Merge(ps[i], u) else ps[i])
  }

  /** `deletePlaceholder`: exactly the placeholders with the id go. */
  function DeletePlaceholder(ps: seq<Placeholder>, id: string): (r: seq<Placeholder>)
    ensures Lists.IsSubsequence(r, ps)
    ensures forall p :: p in r <==> p in ps && p.id != id
    ensures forall p: Placeholder :: p.id != id ==> multiset(r)[p] == multiset(ps)[p]
  {
    var r := Lists.Filter(ps, (p: Placeholder) => p.id != id);
    forall p ensures p in r <==> p in ps && p.id != id {
      Lists.FilterKeepsMembers(ps, (p: Placeholder) => p.id != id, p);
    }
    r
  }

  /** The eight placeholders seeded on first use; `today` is the locale
      rendering of the current date. */
  function DefaultPlaceholders(today: string): seq<Placeholder> {
    [ Placeholder("1", "$user.name", "User Info", "All", "John Doe"),
      Placeholder("2", "$user.email", "User Info", "All", "john.doe@example.com"),
      Placeholder("3", "$user.phone", "User Info", "All", "+1 234 567 8900"),
      Placeholder("4", "$company.name", "Company", "Business", "Acme Corporation"),
      Placeholder("5", "$company.address", "Company", "Business", "123 Business St, NY 10001"),
      Placeholder("6", "$date.today", "Dates", "All", today),
      Placeholder("7", "$contract.number", "Legal", "Contracts", "CNT-2025-001"),
      Placeholder("8", "$amount.total", "Financial", "Invoices", "$5,250.00") ]
  }

  /** What the provider loads at mount: the stored list when the slot holds
      one (an empty list included), else the defaults. */
  function SeedPlaceholders(stored: Option<seq<Placeholder>>, today: string): (r: seq<Placeholder>)
    ensures stored.Some? ==> r == stored.value
    ensures stored.None? ==>
      && |r| == 8
      && (forall i, j :: 0 <= i < j < |r| ==> r[i].id != r[j].id)
      && (forall i, j :: 0 <= i < j < |r| ==> r[i].code != r[j].code)
      && (forall i :: 0 <= i < |r| ==> StartsWith(r[i].code, "$"))
  {
    match stored
    case Some(ps) => ps
    case None =>
      DefaultIdsDistinct(today);
      DefaultCodesDistinct(today);
      DefaultCodesStartWithDollar(today);
      DefaultPlaceholders(today)
  }

  lemma DefaultIdsDistinct(today: string)
    ensures var r := DefaultPlaceholders(today);
      forall i, j :: 0 <= i < j < |r| ==> r[i].id != r[j].id
  {
  }

  lemma DefaultCodesDistinct(today: string)
    ensures var r := DefaultPlaceholders(today);
      forall i, j :: 0 <= i < j < |r| ==> r[i].code != r[j].code
  {
  }

  lemma DefaultCodesStartWithDollar(today: string)
    ensures var r := DefaultPlaceholders(today);
      forall i :: 0 <= i < |r| ==> StartsWith(r[i].code, "$")
  {
  }
}

=== FILE: flat_store.dfy ===
/** The backend's storage exactly as `server/index.js` lays it out: one
    directory in which a document's metadata lives at `id.json` and its bytes
    at `id.ext`. The two names coincide when the extension is "json", and the
    metadata, written second, replaces the bytes. `Server` keeps the two in
    separate namespaces, which is what the handlers evidently intend. */
module FlatStore {
  import opened Text
  import Server

  datatype File = MetaFile(meta: Server.Meta) | BlobFile(bytes: Bytes)

  type Directory = map<string, File>

  /** The metadata file `${id}.json`: the blob name with extension "json". */
  function MetaKey(id: string): string {
    Server.BlobKey(id, "json")
  }

  /** The upload handler writing into the shared directory: the bytes first
      (for an embedded payload), then the metadata. */
  function Upload(dir: Directory, req: Server.UploadRequest, now: int, decode: string -> Bytes): (d: Directory)
    ensures !Server.ValidUpload(req) ==> d == dir
    ensures Server.ValidUpload(req) ==>
      MetaKey(req.id) in d && d[MetaKey(req.id)] == MetaFile(Server.UploadedMeta(req, now))
    ensures Server.ValidUpload(req) && Truthy(req.fileUrl) ==>
      d == dir[MetaKey(req.id) := MetaFile(Server.UploadedMeta(req, now))]
    ensures Server.ValidUpload(req) && !Truthy(req.fileUrl) ==>
      d == dir[Server.BlobKey(req.id, Server.ExtOf(req.name, req.mime)) := BlobFile(decode(Server.DataPart(req.base64)))]
              [MetaKey(req.id) := MetaFile(Server.UploadedMeta(req, now))]
    ensures forall k :: k in dir && k != MetaKey(req.id) && k != Server.BlobKey(req.id, Server.ExtOf(req.name, req.mime)) ==>
      k in d && d[k] == dir[k]
  {
    if !Server.ValidUpload(req) then dir
    else
      var meta := Server.UploadedMeta(req, now);
      if Truthy(req.fileUrl) then dir[MetaKey(req.id) := MetaFile(meta)]
      else
        dir[Server.BlobKey(req.id, meta.ext) := BlobFile(decode(Server.DataPart(req.base64)))]
           [MetaKey(req.id) := MetaFile(meta)]
  }

  /** What the download handler sends: whatever file sits at `id.ext`. A
      metadata slot holding bytes fails to parse, which Express answers
      with 500. */
  datatype Reply = NotFound | Redirect(url: string) | Serve(filename: string, file: File) | ServerError

  function Download(dir: Directory, id: string): (r: Reply)
    ensures MetaKey(id) !in dir ==> r == NotFound
    ensures MetaKey(id) in dir && dir[MetaKey(id)].BlobFile? ==> r == ServerError
    ensures MetaKey(id) in dir && dir[MetaKey(id)].MetaFile? && Truthy(dir[MetaKey(id)].meta.fileUrl) ==>
      r == Redirect(dir[MetaKey(id)].meta.fileUrl)
    ensures MetaKey(id) in dir && dir[MetaKey(id)].MetaFile? && !Truthy(dir[MetaKey(id)].meta.fileUrl) ==>
      var meta := dir[MetaKey(id)].meta;
      r == (if Server.BlobKey(id, meta.ext) in dir then Serve(meta.name, dir[Server.BlobKey(id, meta.ext)]) else NotFound)
    ensures r.Serve? ==>
      && MetaKey(id) in dir && dir[MetaKey(id)].MetaFile?
      && Server.BlobKey(id, dir[MetaKey(id)].meta.ext) in dir
      && r.file == dir[Server.BlobKey(id, dir[MetaKey(id)].meta.ext)]
  {
    if MetaKey(id) !in dir then NotFound
    else
      match dir[MetaKey(id)]
      case BlobFile(_) => ServerError
      case MetaFile(meta) =>
        if Truthy(meta.fileUrl) then Redirect(meta.fileUrl)
        else
          var key := Server.BlobKey(id, meta.ext);
          if key !in dir then NotFound else Serve(meta.name, dir[key])
  }

  /** As written, an embedded upload whose extension is "json" downloads as
      its own metadata record instead of the uploaded bytes. */
  lemma JsonUploadServesMetadata(dir: Directory, req: Server.UploadRequest, now: int, decode: string -> Bytes)
    requires Server.ValidUpload(req) && !Truthy(req.fileUrl)
    requires Server.ExtOf(req.name, req.mime) == "json"
    ensures Download(Upload(dir, req, now, decode), req.id) == Serve(req.name, MetaFile(Server.UploadedMeta(req, now)))
  {
  }

  lemma JsonIsLowercase()
    ensures Lower("json") == "json"
  {
    var json := "json";
    assert forall i :: 0 <= i < |json| ==> !IsUpper(json[i]);
    LowerKeepsLowercase(json);
  }

  /** `notes.json` records the extension `json`. */
  lemma NotesJsonExtension()
    ensures Server.ExtOf("notes.json", "application/json") == "json"
  {
    Server.ExtOfDottedName("notes", "json", "application/json");
    assert "notes" + "." + "json" == "notes.json";
    JsonIsLowercase();
  }

  /** The same holds of a concrete request: a file named `notes.json`. */
  lemma JsonUploadExample(dir: Directory, decode: string -> Bytes)
    ensures var req := Server.UploadRequest("d1", "notes.json", "application/json", "e30=", "");
      Download(Upload(dir, req, 0, decode), "d1") == Serve("notes.json", MetaFile(Server.UploadedMeta(req, 0)))
  {
    var req := Server.UploadRequest("d1", "notes.json", "application/json", "e30=", "");
    NotesJsonExtension();
    JsonUploadServesMetadata(dir, req, 0, decode);
  }

  /** For every other extension the shared directory behaves like the
      separate stores of `Server`: the upload reads back unchanged. */
  lemma OtherExtensionsRoundTrip(dir: Directory, req: Server.UploadRequest, now: int, decode: string -> Bytes)
    requires Server.ValidUpload(req) && !Truthy(req.fileUrl)
    requires Server.ExtOf(req.name, req.mime) != "json"
    ensures Download(Upload(dir, req, now, decode), req.id) == Serve(req.name, BlobFile(decode(Server.DataPart(req.base64))))
  {
    var meta := Server.UploadedMeta(req, now);
    var key := Server.BlobKey(req.id, meta.ext);
    var file := BlobFile(decode(Server.DataPart(req.base64)));
    SamePrefixCancels(req.id + ".", meta.ext, "json");
    var d := Upload(dir, req, now, decode);
    assert d == dir[key := file][MetaKey(req.id) := MetaFile(meta)];
    assert d[MetaKey(req.id)] == MetaFile(meta);
    assert key in d && d[key] == file;
  }

}

=== FILE: js_lookup.dfy ===
/** `extFromMime`'s table lookup as JavaScript performs it. `map[mime]` on an
    object literal consults Object.prototype when the literal has no such
    key, so a MIME type that names an inherited member yields that member,
    which is truthy and so wins over the `'docx'` fallback. The upload handler
    then interpolates it into the file name, while `JSON.stringify` drops a
    function-valued `ext` from the metadata. `Server.ExtFromMime` reads the
    table as own keys only, which is what the handler evidently intends. */
module JsLookup {
  import opened Text
  import Server

  /** What `map[mime]` can produce: a table entry, an inherited method, the
      prototype object itself (for `__proto__`), or nothing. */
  datatype JsValue = Str(s: string) | NativeFunction(name: string) | PrototypeObject | Undefined

  /** The methods every object literal inherits from Object.prototype. */
  const InheritedMethods: set<string> := {
    "constructor", "hasOwnProperty", "isPrototypeOf", "propertyIsEnumerable",
    "toLocaleString", "toString", "valueOf",
    "__defineGetter__", "__defineSetter__", "__lookupGetter__", "__lookupSetter__"
  }

  predicate Inherited(key: string) {
    key in InheritedMethods || key == "__proto__"
  }

  /** The table's MIME types are 15, 18, 39, 65, 71 and 73 characters long. */
  lemma MimeTypeLengths()
    ensures forall k :: k in Server.MimeTable ==> |k| in {15, 18, 39, 65, 71, 73}
  {
  }

  /** The inherited keys are at most 20 characters long and never 15 or 18. */
  lemma InheritedKeyLengths()
    ensures forall k :: Inherited(k) ==> |k| <= 20 && |k| != 15 && |k| != 18
  {
  }

  /** No inherited key is a MIME type of the table. */
  lemma InheritedKeysAreNotMimeTypes()
    ensures forall key :: Inherited(key) ==> key !in Server.MimeTable
  {
    MimeTypeLengths();
    InheritedKeyLengths();
  }

  /** `map[mime]`: the literal's own entries first, then the prototype chain.
      The inherited `constructor` is the function named `Object`. */
  function Lookup(mime: string): (v: JsValue)
    ensures mime in Server.MimeTable ==> v == Str(Server.MimeTable[mime])
    ensures v.Undefined? <==> mime !in Server.MimeTable && !Inherited(mime)
    ensures v.Str? ==> mime in Server.MimeTable
  {
    if mime in Server.MimeTable then Str(Server.MimeTable[mime])
    else if mime == "__proto__" then PrototypeObject
    else if mime in InheritedMethods then NativeFunction(if mime == "constructor" then "Object" else mime)
    else Undefined
  }

  predicate JsTruthy(v: JsValue) {
    match v
    case Str(s) => Truthy(s)
    case Undefined => false
    case _ => true
  }

  /** `map[mime] || 'docx'` as written. Away from the inherited keys it is
      the own-key table; on them it is the inherited member. */
  function ExtFromMimeAsWritten(mime: string): (v: JsValue)
    ensures !Inherited(mime) ==> v == Str(Server.ExtFromMime(mime))
    ensures mime in InheritedMethods ==> v.NativeFunction?
    ensures mime == "__proto__" ==> v == PrototypeObject
  {
    InheritedKeysAreNotMimeTypes();
    var v := Lookup(mime);
    if JsTruthy(v) then v else Str("docx")
  }

  /** A template literal's `${v}`: a native function prints its source text,
      an object prints as `[object Object]`. */
  function Interpolate(v: JsValue): string {
    match v
    case Str(s) => s
    case NativeFunction(name) => "function " + name + "() { [native code] }"
    case PrototypeObject => "[object Object]"
    case Undefined => "undefined"
  }

  /** A property after `JSON.stringify` and `JSON.parse`: a function is
      dropped, and an object without own properties comes back as an empty
      object, which interpolates as the prototype object does. */
  function JsonRoundTrip(v: JsValue): (w: JsValue)
    ensures v.NativeFunction? ==> w == Undefined
    ensures !v.NativeFunction? ==> w == v
  {
    if v.NativeFunction? then Undefined else v
  }

  /** The extension value the upload handler computes. */
  function ExtValue(name: string, mime: string): (v: JsValue)
    ensures '.' in name || !Inherited(mime) ==> v == Str(Server.ExtOf(name, mime))
  {
    if '.' in name then Str(Server.ExtOf(name, mime)) else ExtFromMimeAsWritten(mime)
  }

  /** The upload handler as written. The bytes go to `${id}.${ext}`, and the
      metadata keeps the `ext` that survives JSON. Away from a dotless name
      with an inherited type, this is `Server.Upload` exactly. */
  function Upload(st: Server.Store, req: Server.UploadRequest, o: Server.Origin, now: int,
                  decode: string -> Bytes): (out: Server.Step<Server.UploadReply>)
    ensures '.' in req.name || !Inherited(req.mime) ==> out == Server.Upload(st, req, o, now, decode)
    ensures !Server.ValidUpload(req) ==> out == Server.Step(st, Server.BadRequest)
    ensures Server.ValidUpload(req) && !Truthy(req.fileUrl) ==>
      && out.store.metas == st.metas[req.id := Server.UploadedMeta(req, now).(ext := Interpolate(JsonRoundTrip(ExtValue(req.name, req.mime))))]
      && out.store.blobs == st.blobs[req.id + "." + Interpolate(ExtValue(req.name, req.mime)) := decode(Server.DataPart(req.base64))]
  {
    if !Server.ValidUpload(req) then Server.Step(st, Server.BadRequest)
    else
      var ext := ExtValue(req.name, req.mime);
      var meta := Server.UploadedMeta(req, now).(ext := Interpolate(JsonRoundTrip(ext)));
      if Truthy(req.fileUrl) then
        Server.Step(Server.Store(st.metas[req.id := meta], st.blobs), Server.Uploaded(req.id, req.fileUrl, req.fileUrl))
      else
        Server.Step(Server.Store(st.metas[req.id := meta],
                                 st.blobs[req.id + "." + Interpolate(ext) := decode(Server.DataPart(req.base64))]),
                    Server.Uploaded(req.id, "", Server.DownloadUrl(o, req.id)))
  }

  /** A dotless name whose type names an inherited method: the bytes sit
      under the function's source text, the metadata has lost `ext`, and the
      download looks for `id.undefined` and answers 404. */
  lemma InheritedTypeLosesUpload(st: Server.Store, req: Server.UploadRequest, o: Server.Origin, now: int,
                                 decode: string -> Bytes)
    requires Server.ValidUpload(req) && !Truthy(req.fileUrl)
    requires '.' !in req.name && req.mime in InheritedMethods
    requires Server.BlobKey(req.id, "undefined") !in st.blobs
    ensures Upload(st, req, o, now, decode).reply.Uploaded?
    ensures Server.Download(Upload(st, req, o, now, decode).store, req.id) == Server.NotFound
  {
    var ext := ExtValue(req.name, req.mime);
    var written := req.id + "." + Interpolate(ext);
    assert |written| > |Server.BlobKey(req.id, "undefined")|;
  }

  /** The instance: `{id:"d1", name:"README", type:"toString"}` uploads but
      cannot be downloaded. */
  lemma ToStringTypeExample(o: Server.Origin, now: int, decode: string -> Bytes)
    ensures var req := Server.UploadRequest("d1", "README", "toString", "aGk=", "");
      Server.Download(Upload(Server.Store(map[], map[]), req, o, now, decode).store, "d1") == Server.NotFound
  {
    var req := Server.UploadRequest("d1", "README", "toString", "aGk=", "");
    assert "toString" in InheritedMethods;
    assert '.' !in req.name;
    InheritedTypeLosesUpload(Server.Store(map[], map[]), req, o, now, decode);
  }

  /** `__proto__` is the inherited key that does no harm: the prototype object
      and its JSON copy both print as `[object Object]`, so the bytes are
      found again. */
  lemma ProtoTypeStillServes(st: Server.Store, req: Server.UploadRequest, o: Server.Origin, now: int,
                             decode: string -> Bytes)
    requires Server.ValidUpload(req) && !Truthy(req.fileUrl)
    requires '.' !in req.name && req.mime == "__proto__"
    ensures Server.Download(Upload(st, req, o, now, decode).store, req.id)
      == Server.Serve(req.name, decode(Server.DataPart(req.base64)))
  {
    assert ExtValue(req.name, req.mime) == PrototypeObject;
  }
}

=== FILE: lists.dfy ===
/** Order-preserving filtering, the `Array.prototype.filter` every list store
    of the application uses for deletion and for derived views. */
module Lists {

  /** `a` can be obtained from `b` by dropping elements, keeping the order. */
  ghost predicate IsSubsequence<T>(a: seq<T>, b: seq<T>)
    decreases |b|
  {
    if |a| == 0 then true
    else if |b| == 0 then false
    else (a[0] == b[0] && IsSubsequence(a[1..], b[1..])) || IsSubsequence(a, b[1..])
  }

  /** `s.filter(keep)`: the elements that pass, in their original order and
      with their original multiplicity, and nothing else. */
  function Filter<T(!new)>(s: seq<T>, keep: T -> bool): (r: seq<T>)
    ensures |r| <= |s|
    ensures IsSubsequence(r, s)
    ensures forall x :: x in r ==> keep(x)
    ensures forall x :: keep(x) ==> multiset(r)[x] == multiset(s)[x]
    ensures forall i :: 0 <= i < |r| ==> r[i] in s
    decreases |s|
  {
    if |s| == 0 then []
    else
      var rest := Filter(s[1..], keep);
      assert s == [s[0]] + s[1..];
      if keep(s[0]) then
        assert ([s[0]] + rest)[1..] == rest;
        [s[0]] + rest
      else rest
  }

  lemma FilterKeepsMembers<T(!new)>(s: seq<T>, keep: T -> bool, x: T)
    ensures x in Filter(s, keep) <==> x in s && keep(x)
  {
    var r := Filter(s, keep);
    if x in s && keep(x) {
      assert multiset(s)[x] > 0;
    }
  }

  /** Filtering with a test everything passes changes nothing. */
  lemma {:induction false} FilterAll<T(!new)>(s: seq<T>, keep: T -> bool)
    requires forall i :: 0 <= i < |s| ==> keep(s[i])
    ensures Filter(s, keep) == s
    decreases |s|
  {
    if |s| > 0 {
      FilterAll(s[1..], keep);
      assert s == [s[0]] + s[1..];
    }
  }

  /** Filtering with a test nothing passes leaves nothing. */
  lemma {:induction false} FilterNone<T(!new)>(s: seq<T>, keep: T -> bool)
    requires forall i :: 0 <= i < |s| ==> !keep(s[i])
    ensures Filter(s, keep) == []
    decreases |s|
  {
    if |s| > 0 {
      FilterNone(s[1..], keep);
    }
  }
}

=== FILE: local_callback.dfy ===
/** The in-browser save callback (`api/server.js`): a save status with a url
    stores the fetched document, as a data URL, into the first stored
    document with the id and stamps it with the clock. The fetch-and-read
    outcome and the clock are inputs; the document list is the
    `dms_documents` storage slot, `None` when it is empty. */
module LocalCallback {
  import opened Text
  import Server
  import Documents
  import DocumentServerApi

  /** `{error: 0}` or `{error: 1}`. */
  datatype Reply = Reply(error: int)

  datatype Outcome = Outcome(stored: Option<seq<Documents.Doc>>, reply: Reply)

  /** `findIndex`: the first position holding the id. */
  function FirstIndex(docs: seq<Documents.Doc>, id: string): (r: Option<nat>)
    ensures r.Some? ==> r.value < |docs| && docs[r.value].id == id
    ensures r.Some? ==> forall j :: 0 <= j < r.value ==> docs[j].id != id
    ensures r.None? <==> forall j :: 0 <= j < |docs| ==> docs[j].id != id
    decreases |docs|
  {
    if |docs| == 0 then None
    else if docs[0].id == id then Some(0)
    else
      match FirstIndex(docs[1..], id)
      case None => None
      case Some(k) => Some(k + 1)
  }

  /** The reader's `result` when `loadend` fires: the data URL, or null after
      a failed read (written "", which reads back just as falsy). */
  function ReadResult(outcome: DocumentServerApi.FetchRead): string {
    if outcome.FetchedAndRead? then outcome.dataUrl else ""
  }

  /** `handleOnlyOfficeCallback`. Every status other than a save with a url
      is acknowledged and nothing changes. A save whose fetch throws, or
      that finds no stored list or no document with the id, answers
      `{error: 1}` and changes nothing. Otherwise the reader's result (null
      when the read failed, since `loadend` fires either way) replaces the
      data of the first document with the id, and of no other, and stamps it
      with the clock. */
  function HandleOnlyOfficeCallback(stored: Option<seq<Documents.Doc>>, id: string, body: Server.CallbackBody,
                                    outcome: DocumentServerApi.FetchRead, now: int): (r: Outcome)
    ensures !Server.IsSaveStatus(body.status) || !Truthy(body.url) ==> r == Outcome(stored, Reply(0))
    ensures r.stored != stored ==> r.reply == Reply(0)
    ensures r.reply == Reply(0) && Server.IsSaveStatus(body.status) && Truthy(body.url) ==>
      && !outcome.FetchThrew? && stored.Some? && r.stored.Some?
      && FirstIndex(stored.value, id).Some?
      && var docs := stored.value;
         var i := FirstIndex(docs, id).value;
         && |r.stored.value| == |docs|
         && r.stored.value[i] == docs[i].(fileData := ReadResult(outcome), lastModified := now)
         && (forall j :: 0 <= j < |docs| && j != i ==> r.stored.value[j] == docs[j])
    ensures Server.IsSaveStatus(body.status) && Truthy(body.url) && !outcome.FetchThrew? ==>
      (r.reply == Reply(0) <==> stored.Some? && exists j :: 0 <= j < |stored.value| && stored.value[j].id == id)
    ensures outcome.FetchThrew? && Server.IsSaveStatus(body.status) && Truthy(body.url) ==>
      r == Outcome(stored, Reply(1))
  {
    if Server.IsSaveStatus(body.status) && Truthy(body.url) then
      if outcome.FetchThrew? then Outcome(stored, Reply(1))
      else
        match stored
        case None => Outcome(stored, Reply(1))
        case Some(docs) =>
          match FirstIndex(docs, id)
          case None => Outcome(stored, Reply(1))
          case Some(i) =>
            Outcome(Some(docs[i := docs[i].(fileData := ReadResult(outcome), lastModified := now)]), Reply(0))
    else Outcome(stored, Reply(0))
  }

  /** Delivering the same save twice (a retried callback) leaves the same
      list as delivering it once. */
  lemma SaveIsIdempotent(stored: Option<seq<Documents.Doc>>, id: string, body: Server.CallbackBody,
                         outcome: DocumentServerApi.FetchRead, now: int)
    ensures var once := HandleOnlyOfficeCallback(stored, id, body, outcome, now);
      HandleOnlyOfficeCallback(once.stored, id, body, outcome, now).stored == once.stored
  {
    var once := HandleOnlyOfficeCallback(stored, id, body, outcome, now);
    if once.stored != stored {
      var docs := stored.value;
      var i := FirstIndex(docs, id).value;
      var after := once.stored.value;
      FirstIndexUnchangedByUpdate(docs, id, i, after[i]);
      assert after == docs[i := after[i]];
      assert after[i := after[i].(fileData := ReadResult(outcome), lastModified := now)] == after;
    }
  }

  /** Changing the document at the first match, keeping its id, keeps it the
      first match. */
  lemma {:induction false} FirstIndexUnchangedByUpdate(docs: seq<Documents.Doc>, id: string, i: nat, d: Documents.Doc)
    requires FirstIndex(docs, id) == Some(i) && d.id == id
    ensures FirstIndex(docs[i := d], id) == Some(i)
  {
    var after := docs[i := d];
    assert after[i].id == id;
    assert forall j :: 0 <= j < i ==> after[j].id != id by {
      forall j | 0 <= j < i ensures after[j].id != id {
        assert after[j] == docs[j];
      }
    }
  }

  /** After a successful save the editor is handed the saved data URL. */
  lemma SavedDataReachesEditor(docs: seq<Documents.Doc>, id: string, body: Server.CallbackBody,
                               dataUrl: string, now: int)
    requires Server.IsSaveStatus(body.status) && Truthy(body.url)
    requires FirstIndex(docs, id).Some? && StartsWith(dataUrl, "data:")
    ensures var r := HandleOnlyOfficeCallback(Some(docs), id, body, DocumentServerApi.FetchedAndRead(dataUrl), now);
      var i := FirstIndex(docs, id).value;
      r.reply == Reply(0) && DocumentServerApi.DocumentUrl(r.stored.value[i].fileData) == dataUrl
  {
  }
}

=== FILE: preview.dfy ===
/** The live preview (`PDFPreview.jsx`). The document text is split on a
    pattern that alternates the escaped placeholder codes inside one
    capturing group, so the codes are matched literally, and each part is
    shown either as the demo value of the first placeholder with exactly
    that code or verbatim. The split follows `RegExp.prototype[@@split]`
    (section 22.2.6.14 of ECMA-262): the pattern is tried at every position
    in turn, an alternation takes the first listed alternative that matches
    there, and an empty match right where the previous piece ended does not
    split. */
module Preview {
  import opened Text
  import Documents

  // ---------------------------------------------------------------------------
  // Matching and splitting

  /** The first alternative that is a prefix of `s`. */
  function FirstMatch(alts: seq<string>, s: string): (r: Option<nat>)
    ensures r.Some? ==> r.value < |alts| && StartsWith(s, alts[r.value])
    ensures r.Some? ==> forall j {:trigger StartsWith(s, alts[j])} :: 0 <= j < r.value ==> !StartsWith(s, alts[j])
    ensures r.None? <==> forall j {:trigger StartsWith(s, alts[j])} :: 0 <= j < |alts| ==> !StartsWith(s, alts[j])
    decreases |alts|
  {
    if |alts| == 0 then None
    else if StartsWith(s, alts[0]) then Some(0)
    else
      match FirstMatch(alts[1..], s)
      case None => None
      case Some(k) => Some(k + 1)
  }

  /** The alternatives of the pattern: the codes in order, or the single
      empty alternative of `()` when there are no placeholders. */
  function Alternatives(ps: seq<Documents.Placeholder>): (alts: seq<string>)
    ensures |ps| == 0 ==> alts == [""]
    ensures |ps| > 0 ==> |alts| == |ps| && forall i :: 0 <= i < |ps| ==> alts[i] == ps[i].code
  {
    if |ps| == 0 then [""] else seq(|ps|, i requires 0 <= i < |ps| => ps[i].code)
  }

  /** The split loop from position `q`, the current piece having started at
      `p`: no match moves on one position; an empty match where the piece
      started moves on as well; any other match closes the piece and emits
      it followed by the matched code. */
  function Scan(alts: seq<string>, s: string, p: nat, q: nat): (r: seq<string>)
    requires p <= q <= |s|
    decreases |s| - q, q - p
  {
    if q == |s| then [s[p..]]
    else
      match FirstMatch(alts, s[q..])
      case None => Scan(alts, s, p, q + 1)
      case Some(i) =>
        var e := q + |alts[i]|;
        if e == p then Scan(alts, s, p, q + 1)
        else [s[p..q], alts[i]] + Scan(alts, s, e, e)
  }

  /** `content.split(regex)`. An empty string splits into nothing when the
      pattern matches the empty string, else into itself. */
  function SplitByCodes(alts: seq<string>, s: string): (r: seq<string>)
    ensures Concat(r) == s
    ensures |s| == 0 ==> (r == [] <==> FirstMatch(alts, "").Some?)
  {
    if |s| == 0 then
      if FirstMatch(alts, "").Some? then []
      else
        assert Concat([""]) == "" + Concat([]);
        [""]
    else
      ScanConcat(alts, s, 0, 0);
      Scan(alts, s, 0, 0)
  }

  function Concat(parts: seq<string>): string
    decreases |parts|
  {
    if |parts| == 0 then "" else parts[0] + Concat(parts[1..])
  }

  lemma ConcatPair(a: string, c: string, rest: seq<string>)
    ensures Concat([a, c] + rest) == a + c + Concat(rest)
  {
    assert ([a, c] + rest)[1..] == [c] + rest;
    assert ([c] + rest)[1..] == rest;
  }

  /** The captured codes are kept, so the parts put back together give the
      text. */
  lemma {:induction false} ScanConcat(alts: seq<string>, s: string, p: nat, q: nat)
    requires p <= q <= |s|
    ensures Concat(Scan(alts, s, p, q)) == s[p..]
    decreases |s| - q, q - p
  {
    if q == |s| {
      assert Concat([s[p..]]) == s[p..] + Concat([]);
    } else {
      match FirstMatch(alts, s[q..])
      case None => ScanConcat(alts, s, p, q + 1);
      case Some(i) =>
        var c := alts[i];
        var e := q + |c|;
        if e == p {
          ScanConcat(alts, s, p, q + 1);
        } else {
          ScanConcat(alts, s, e, e);
          ConcatAtMatch(alts, s, p, q, i);
        }
    }
  }

  /** A match at `q` that closes a piece: the piece, the code and the rest
      put back together give the text from `p`. */
  lemma ConcatAtMatch(alts: seq<string>, s: string, p: nat, q: nat, i: nat)
    requires p <= q < |s| && FirstMatch(alts, s[q..]) == Some(i) && q + |alts[i]| != p
    requires Concat(Scan(alts, s, q + |alts[i]|, q + |alts[i]|)) == s[q + |alts[i]|..]
    ensures Concat(Scan(alts, s, p, q)) == s[p..]
  {
    var c := alts[i];
    var e := q + |c|;
    ScanSplits(alts, s, p, q, i);
    ConcatPair(s[p..q], c, Scan(alts, s, e, e));
    MatchedSlice(s, q, c);
    SliceInThree(s, p, q, e);
  }

  /** A code the text at `q` starts with is the slice of the text there. */
  lemma MatchedSlice(s: string, q: nat, c: string)
    requires q <= |s| && StartsWith(s[q..], c)
    ensures q + |c| <= |s| && s[q..q + |c|] == c
  {
    assert s[q..][..|c|] == s[q..q + |c|];
  }

  lemma SliceInThree(s: string, p: nat, q: nat, e: nat)
    requires p <= q <= e <= |s|
    ensures s[p..] == s[p..q] + s[q..e] + s[e..]
  {
  }

  lemma SplitConcat(alts: seq<string>, s: string)
    ensures Concat(SplitByCodes(alts, s)) == s
  {
    if |s| == 0 {
      assert Concat([""]) == "" + Concat([]);
    } else {
      ScanConcat(alts, s, 0, 0);
    }
  }

  /** The parts alternate: text, code, text, …, text; every odd part is one
      of the alternatives. */
  lemma {:induction false} ScanShape(alts: seq<string>, s: string, p: nat, q: nat)
    requires p <= q <= |s|
    ensures var r := Scan(alts, s, p, q);
      |r| % 2 == 1 && forall k :: 0 <= k < |r| / 2 ==> r[2 * k + 1] in alts
    decreases |s| - q, q - p
  {
    if q < |s| {
      match FirstMatch(alts, s[q..])
      case None => ScanShape(alts, s, p, q + 1);
      case Some(i) =>
        var e := q + |alts[i]|;
        if e == p {
          ScanShape(alts, s, p, q + 1);
        } else {
          ScanShape(alts, s, e, e);
          var rest := Scan(alts, s, e, e);
          var r := [s[p..q], alts[i]] + rest;
          forall k | 0 <= k < |r| / 2 ensures r[2 * k + 1] in alts {
            if k > 0 {
              assert r[2 * k + 1] == rest[2 * (k - 1) + 1];
            }
          }
        }
    }
  }

  // ---------------------------------------------------------------------------
  // Rendering

  datatype Segment = Plain(text: string) | Highlight(placeholder: Documents.Placeholder)

  /** `placeholders.find(p => p.code === part)`. */
  function FindByCode(ps: seq<Documents.Placeholder>, part: string): (r: Option<nat>)
    ensures r.Some? ==> r.value < |ps| && ps[r.value].code == part
    ensures r.Some? ==> forall j :: 0 <= j < r.value ==> ps[j].code != part
    ensures r.None? <==> forall j :: 0 <= j < |ps| ==> ps[j].code != part
    decreases |ps|
  {
    if |ps| == 0 then None
    else if ps[0].code == part then Some(0)
    else
      match FindByCode(ps[1..], part)
      case None => None
      case Some(k) => Some(k + 1)
  }

  function RenderPart(ps: seq<Documents.Placeholder>, part: string): (seg: Segment)
    ensures seg.Highlight? <==> exists j :: 0 <= j < |ps| && ps[j].code == part
    ensures seg.Plain? ==> seg.text == part
    ensures seg.Highlight? ==> seg.placeholder == ps[FindByCode(ps, part).value]
  {
    match FindByCode(ps, part)
    case None => Plain(part)
    case Some(j) => Highlight(ps[j])
  }

  function RenderParts(ps: seq<Documents.Placeholder>, parts: seq<string>): (segs: seq<Segment>)
    ensures |segs| == |parts|
    ensures forall k :: 0 <= k < |parts| ==> segs[k] == RenderPart(ps, parts[k])
    decreases |parts|
  {
    if |parts| == 0 then [] else [RenderPart(ps, parts[0])] + RenderParts(ps, parts[1..])
  }

  /** What a segment puts on the page. */
  function Shown(seg: Segment): string {
    match seg
    case Plain(t) => t
    case Highlight(p) => p.demoValue
  }

  /** The text of the rendered body. */
  function DisplayText(segs: seq<Segment>): string
    decreases |segs|
  {
    if |segs| == 0 then "" else Shown(segs[0]) + DisplayText(segs[1..])
  }

  /** The preview body's segments for the given text. */
  function Segments(ps: seq<Documents.Placeholder>, content: string): seq<Segment> {
    RenderParts(ps, SplitByCodes(Alternatives(ps), content))
  }

  datatype PreviewView = NothingToPreview | Page(segments: seq<Segment>)

  /** The preview pane: the page only when it is switched on and there is
      text. */
  function View(show: bool, content: string, ps: seq<Documents.Placeholder>): (v: PreviewView)
    ensures v.Page? <==> show && Truthy(content)
    ensures v.Page? ==> v.segments == Segments(ps, content)
  {
    if show && Truthy(content) then Page(Segments(ps, content)) else NothingToPreview
  }

  // ---------------------------------------------------------------------------
  // The reference substitution

  /** Every code is non-empty. */
  ghost predicate CodesNonEmpty(ps: seq<Documents.Placeholder>) {
    forall i :: 0 <= i < |ps| ==> ps[i].code != ""
  }

  /** Direct left-to-right substitution: at each position the first listed
      placeholder whose code starts there is replaced by its demo value and
      the scan resumes after the code; otherwise the character is kept. */
  function Substitute(ps: seq<Documents.Placeholder>, s: string): string
    requires CodesNonEmpty(ps)
    decreases |s|
  {
    if |s| == 0 then ""
    else if |ps| == 0 then s
    else
      match FirstMatch(Alternatives(ps), s)
      case None => [s[0]] + Substitute(ps, s[1..])
      case Some(i) => ps[i].demoValue + Substitute(ps, s[|ps[i].code|..])
  }

  lemma DisplayPair(a: Segment, b: Segment, rest: seq<Segment>)
    ensures DisplayText([a, b] + rest) == Shown(a) + Shown(b) + DisplayText(rest)
  {
    assert ([a, b] + rest)[1..] == [b] + rest;
    assert ([b] + rest)[1..] == rest;
  }

  /** A piece of text the scan passed over without a match is no code. */
  lemma PieceIsNoCode(ps: seq<Documents.Placeholder>, s: string, p: nat, q: nat)
    requires |ps| > 0 && CodesNonEmpty(ps) && p <= q <= |s|
    requires forall k :: p <= k < q ==> FirstMatch(Alternatives(ps), s[k..]).None?
    ensures FindByCode(ps, s[p..q]).None?
  {
    var alts := Alternatives(ps);
    if p < q {
      var t := s[p..];
      assert FirstMatch(alts, t).None?;
      assert t[..q - p] == s[p..q];
      forall j | 0 <= j < |ps| ensures ps[j].code != s[p..q] {
        assert alts[j] == ps[j].code && !StartsWith(t, alts[j]);
      }
    } else {
      forall j | 0 <= j < |ps| ensures ps[j].code != s[p..q] {
        assert ps[j].code != "";
      }
    }
  }

  /** The first matching code's placeholder is the first placeholder with
      that code. */
  lemma FirstMatchIsFound(ps: seq<Documents.Placeholder>, s: string, i: nat)
    requires |ps| > 0 && FirstMatch(Alternatives(ps), s) == Some(i)
    ensures FindByCode(ps, ps[i].code) == Some(i)
  {
    var alts := Alternatives(ps);
    forall j | 0 <= j < i ensures ps[j].code != ps[i].code {
      assert !StartsWith(s, alts[j]) && StartsWith(s, alts[i]);
    }
  }

  lemma SubstituteKeeps(ps: seq<Documents.Placeholder>, t: string)
    requires |ps| > 0 && CodesNonEmpty(ps) && |t| > 0 && FirstMatch(Alternatives(ps), t).None?
    ensures Substitute(ps, t) == [t[0]] + Substitute(ps, t[1..])
  {
  }

  lemma SubstituteReplaces(ps: seq<Documents.Placeholder>, t: string, i: nat)
    requires |ps| > 0 && CodesNonEmpty(ps) && |t| > 0 && FirstMatch(Alternatives(ps), t) == Some(i)
    ensures Substitute(ps, t) == ps[i].demoValue + Substitute(ps, t[|ps[i].code|..])
  {
  }

  lemma ScanSplits(alts: seq<string>, s: string, p: nat, q: nat, i: nat)
    requires p <= q < |s| && FirstMatch(alts, s[q..]) == Some(i) && q + |alts[i]| != p
    ensures q + |alts[i]| <= |s|
    ensures Scan(alts, s, p, q) == [s[p..q], alts[i]] + Scan(alts, s, q + |alts[i]|, q + |alts[i]|)
  {
  }

  lemma RenderPair(ps: seq<Documents.Placeholder>, a: string, i: nat, rest: seq<string>)
    requires i < |ps| && FindByCode(ps, a).None? && FindByCode(ps, ps[i].code) == Some(i)
    ensures DisplayText(RenderParts(ps, [a, ps[i].code] + rest))
         == a + ps[i].demoValue + DisplayText(RenderParts(ps, rest))
  {
    var segs := RenderParts(ps, [a, ps[i].code] + rest);
    assert segs == [Plain(a), Highlight(ps[i])] + RenderParts(ps, rest);
    DisplayPair(Plain(a), Highlight(ps[i]), RenderParts(ps, rest));
  }

  /** A lone part that is no code shows as itself. */
  lemma ShowsPlain(ps: seq<Documents.Placeholder>, x: string)
    requires FindByCode(ps, x).None?
    ensures DisplayText(RenderParts(ps, [x])) == x
  {
    var segs := RenderParts(ps, [x]);
    assert segs[0] == Plain(x);
    assert DisplayText(segs) == x + DisplayText(segs[1..]);
  }

  lemma ScanKeeps(alts: seq<string>, s: string, p: nat, q: nat)
    requires p <= q < |s| && FirstMatch(alts, s[q..]).None?
    ensures Scan(alts, s, p, q) == Scan(alts, s, p, q + 1)
  {
  }

  lemma ShowsAfterKeep(ps: seq<Documents.Placeholder>, s: string, p: nat, q: nat)
    requires |ps| > 0 && CodesNonEmpty(ps) && p <= q < |s|
    requires FirstMatch(Alternatives(ps), s[q..]).None?
    requires DisplayText(RenderParts(ps, Scan(Alternatives(ps), s, p, q + 1))) == s[p..q + 1] + Substitute(ps, s[q + 1..])
    ensures DisplayText(RenderParts(ps, Scan(Alternatives(ps), s, p, q))) == s[p..q] + Substitute(ps, s[q..])
  {
    SubstituteStep(ps, s, q);
    ScanKeeps(Alternatives(ps), s, p, q);
    SliceExtends(s, p, q);
    Glue(DisplayText(RenderParts(ps, Scan(Alternatives(ps), s, p, q))), s[p..q], s[q], s[p..q + 1],
         Substitute(ps, s[q + 1..]), Substitute(ps, s[q..]));
  }

  /** Substitution at an unmatched position keeps its character. */
  lemma SubstituteStep(ps: seq<Documents.Placeholder>, s: string, q: nat)
    requires |ps| > 0 && CodesNonEmpty(ps) && q < |s|
    requires FirstMatch(Alternatives(ps), s[q..]).None?
    ensures Substitute(ps, s[q..]) == [s[q]] + Substitute(ps, s[q + 1..])
  {
    SubstituteKeeps(ps, s[q..]);
    assert s[q..][1..] == s[q + 1..];
  }

  lemma SliceExtends(s: string, p: nat, q: nat)
    requires p <= q < |s|
    ensures s[p..q + 1] == s[p..q] + [s[q]]
  {
  }

  lemma Glue(x: string, a: string, c: char, ac: string, b: string, y: string)
    requires ac == a + [c] && x == ac + b && y == [c] + b
    ensures x == a + y
  {
  }


  /** The display side of a match at `q`: the text before it, the demo
      value, then whatever the scan shows from the match's end. */
  lemma DisplayAtMatch(ps: seq<Documents.Placeholder>, s: string, p: nat, q: nat, i: nat, e: nat)
    requires |ps| > 0 && CodesNonEmpty(ps) && p <= q < |s|
    requires FirstMatch(Alternatives(ps), s[q..]) == Some(i)
    requires FindByCode(ps, s[p..q]).None?
    requires e == q + |ps[i].code| <= |s|
    ensures DisplayText(RenderParts(ps, Scan(Alternatives(ps), s, p, q)))
         == s[p..q] + ps[i].demoValue + DisplayText(RenderParts(ps, Scan(Alternatives(ps), s, e, e)))
  {
    var alts := Alternatives(ps);
    var rest := Scan(alts, s, e, e);
    assert alts[i] == ps[i].code;
    ScanSplits(alts, s, p, q, i);
    assert Scan(alts, s, p, q) == [s[p..q], ps[i].code] + rest;
    FirstMatchIsFound(ps, s[q..], i);
    RenderPair(ps, s[p..q], i, rest);
  }

  /** The substitution side of a match at `q`. */
  lemma SubstituteAtMatch(ps: seq<Documents.Placeholder>, s: string, q: nat, i: nat, e: nat)
    requires |ps| > 0 && CodesNonEmpty(ps) && q < |s|
    requires FirstMatch(Alternatives(ps), s[q..]) == Some(i)
    requires e == q + |ps[i].code| <= |s|
    ensures Substitute(ps, s[q..]) == ps[i].demoValue + Substitute(ps, s[e..])
  {
    SubstituteReplaces(ps, s[q..], i);
    assert s[q..][|ps[i].code|..] == s[e..];
  }

  lemma ShowsAfterReplace(ps: seq<Documents.Placeholder>, s: string, p: nat, q: nat, i: nat, e: nat)
    requires |ps| > 0 && CodesNonEmpty(ps) && p <= q < |s|
    requires FirstMatch(Alternatives(ps), s[q..]) == Some(i)
    requires FindByCode(ps, s[p..q]).None?
    requires e == q + |ps[i].code| <= |s|
    requires DisplayText(RenderParts(ps, Scan(Alternatives(ps), s, e, e))) == Substitute(ps, s[e..])
    ensures DisplayText(RenderParts(ps, Scan(Alternatives(ps), s, p, q))) == s[p..q] + Substitute(ps, s[q..])
  {
    DisplayAtMatch(ps, s, p, q, i, e);
    SubstituteAtMatch(ps, s, q, i, e);
  }

  lemma {:induction false} ScanShowsSubstitution(ps: seq<Documents.Placeholder>, s: string, p: nat, q: nat)
    requires |ps| > 0 && CodesNonEmpty(ps) && p <= q <= |s|
    requires forall k :: p <= k < q ==> FirstMatch(Alternatives(ps), s[k..]).None?
    ensures DisplayText(RenderParts(ps, Scan(Alternatives(ps), s, p, q))) == s[p..q] + Substitute(ps, s[q..])
    decreases |s| - q
  {
    var alts := Alternatives(ps);
    if q == |s| {
      PieceIsNoCode(ps, s, p, q);
      ShowsPlain(ps, s[p..]);
    } else {
      match FirstMatch(alts, s[q..])
      case None =>
        ScanShowsSubstitution(ps, s, p, q + 1);
        ShowsAfterKeep(ps, s, p, q);
      case Some(i) =>
        var e := q + |ps[i].code|;
        assert alts[i] == ps[i].code && StartsWith(s[q..], alts[i]);
        PieceIsNoCode(ps, s, p, q);
        ScanShowsSubstitution(ps, s, e, e);
        assert s[e..e] == "";
        ShowsAfterReplace(ps, s, p, q, i, e);
    }
  }

  /** With non-empty codes, the preview shows exactly the direct
      substitution of the text: leftmost occurrences first, the earliest
      listed code winning where several start at the same position. */
  lemma RenderMatchesSubstitution(ps: seq<Documents.Placeholder>, content: string)
    requires CodesNonEmpty(ps)
    ensures DisplayText(Segments(ps, content)) == Substitute(ps, content)
  {
    if |ps| == 0 {
      NoPlaceholdersShowContent(content);
    } else if |content| == 0 {
      var segs := Segments(ps, content);
      assert FirstMatch(Alternatives(ps), "").None?;
      assert segs == [Plain("")];
      assert DisplayText(segs) == "" + DisplayText([]);
    } else {
      ScanShowsSubstitution(ps, content, 0, 0);
    }
  }

  lemma {:induction false} PlainDisplay(parts: seq<string>)
    ensures DisplayText(RenderParts([], parts)) == Concat(parts)
    decreases |parts|
  {
    if |parts| > 0 {
      PlainDisplay(parts[1..]);
      var segs := RenderParts([], parts);
      assert segs[1..] == RenderParts([], parts[1..]);
    }
  }

  /** Without placeholders the body shows the text unchanged, as plain
      segments only. */
  lemma NoPlaceholdersShowContent(content: string)
    ensures DisplayText(Segments([], content)) == content
    ensures forall k :: 0 <= k < |Segments([], content)| ==> Segments([], content)[k].Plain?
  {
    var parts := SplitByCodes(Alternatives([]), content);
    PlainDisplay(parts);
    SplitConcat(Alternatives([]), content);
  }

  /** Every highlighted segment shows the first placeholder whose code is
      exactly the captured part. */
  lemma HighlightsAreFirstWithCode(ps: seq<Documents.Placeholder>, content: string, k: nat)
    requires k < |Segments(ps, content)| && Segments(ps, content)[k].Highlight?
    ensures var part := SplitByCodes(Alternatives(ps), content)[k];
      var j := FindByCode(ps, part).value;
      && Segments(ps, content)[k].placeholder == ps[j]
      && ps[j].code == part
      && forall m :: 0 <= m < j ==> ps[m].code != part
  {
  }
}

=== FILE: routes.dfy ===
/** The route table and its guard (`App.jsx`). A navigation either renders
    a page or replaces the location with another path. */
module Routes {
  import opened Text
  import Auth

  datatype Page = LoginPage | DashboardPage | AdminPage | SettingsPage

  datatype View = Render(page: Page) | Redirect(to: string)

  /** `ProtectedRoute`: without a session, off to the login page whatever
      the page needs; a non-admin on an admin page goes home; otherwise the
      page renders. */
  function Protected(st: Auth.AuthState, requireAdmin: bool, page: Page): (v: View)
    ensures st.session.None? ==> v == Redirect("/login")
    ensures st.session.Some? && requireAdmin && !st.isAdmin ==> v == Redirect("/")
    ensures v.Render? <==> st.session.Some? && (!requireAdmin || st.isAdmin)
    ensures v.Render? ==> v.page == page
  {
    if st.session.None? then Redirect("/login")
    else if requireAdmin && !st.isAdmin then Redirect("/")
    else Render(page)
  }

  /** `n` slashes. */
  function Slashes(n: nat): (r: string)
    ensures |r| == n && forall i :: 0 <= i < n ==> r[i] == '/'
  {
    seq(n, _ => '/')
  }

  /** Whether a route pattern matches a location path as the router compiles
      it: the pattern, compared without regard to case, then any number of
      slashes and nothing more. */
  predicate Matches(pattern: string, path: string)
    ensures |path| == |pattern| ==> (Matches(pattern, path) <==> Lower(path) == pattern)
  {
    && |pattern| <= |path|
    && Lower(path[..|pattern|]) == pattern
    && forall i :: |pattern| <= i < |path| ==> path[i] == '/'
  }

  /** A character that folds to a slash is one. */
  lemma FoldsToSlash(c: char)
    requires LowerChar(c) == '/'
    ensures c == '/'
  {
  }

  /** For a pattern without capitals, matching is having the pattern followed
      by slashes once the path is put in lower case. */
  lemma MatchesIsPatternThenSlashes(pattern: string, path: string)
    requires Lower(pattern) == pattern
    ensures Matches(pattern, path) <==> exists n: nat :: Lower(path) == pattern + Slashes(n)
  {
    if Matches(pattern, path) {
      var k := |pattern|;
      assert path == path[..k] + path[k..];
      LowerAppend(path[..k], path[k..]);
      assert Lower(path[k..]) == Slashes(|path| - k);
      assert Lower(path) == pattern + Slashes(|path| - k);
    }
    if n: nat :| Lower(path) == pattern + Slashes(n) {
      var k := |pattern|;
      assert Lower(path[..k]) == Lower(path)[..k];
      forall i | k <= i < |path| ensures path[i] == '/' {
        assert Lower(path)[i] == Slashes(n)[i - k];
        FoldsToSlash(path[i]);
      }
    }
  }

  /** No path matches two of the table's patterns. */
  lemma PatternsExclusive(path: string)
    ensures Matches("/", path) ==> !Matches("/login", path) && !Matches("/admin", path) && !Matches("/settings", path)
    ensures Matches("/login", path) ==> !Matches("/admin", path) && !Matches("/settings", path)
    ensures Matches("/admin", path) ==> !Matches("/settings", path)
  {
    if 6 <= |path| {
      assert Lower(path[..6])[1] == LowerChar(path[1]);
      if 9 <= |path| {
        assert Lower(path[..9])[1] == LowerChar(path[1]);
      }
    }
  }

  /** The table's two redirect targets match their own routes, and the login
      path is not the admin panel's. */
  lemma RedirectTargetsMatch()
    ensures Matches("/login", "/login") && Matches("/", "/")
    ensures !Matches("/admin", "/login")
  {
    LowerKeepsLowercase("/login");
    LowerKeepsLowercase("/");
  }

  /** The route table: the login page is public, home and settings need a
      session, the admin panel needs an administrator, and a path matching
      none of them is sent home. */
  function Resolve(path: string, st: Auth.AuthState): (v: View)
    ensures Matches("/login", path) ==> v == Render(LoginPage)
    ensures Matches("/", path) ==> v == Protected(st, false, DashboardPage)
    ensures Matches("/settings", path) ==> v == Protected(st, false, SettingsPage)
    ensures Matches("/admin", path) ==> v == Protected(st, true, AdminPage)
    ensures !Matches("/login", path) && !Matches("/", path) && !Matches("/settings", path) && !Matches("/admin", path)
      ==> v == Redirect("/")
  {
    PatternsExclusive(path);
    if Matches("/login", path) then Render(LoginPage)
    else if Matches("/", path) then Protected(st, false, DashboardPage)
    else if Matches("/admin", path) then Protected(st, true, AdminPage)
    else if Matches("/settings", path) then Protected(st, false, SettingsPage)
    else Redirect("/")
  }

  /** Following the `<Navigate replace>` redirects for at most `hops` steps.
      A path that renders does so at once; a chain that has not settled is
      on its way to `/login` or `/`; and the admin panel is only ever shown
      to a signed-in administrator. */
  function Follow(path: string, st: Auth.AuthState, hops: nat): (v: View)
    ensures Resolve(path, st).Render? ==> v == Resolve(path, st)
    ensures v.Redirect? ==> v.to == "/login" || v.to == "/"
    ensures v == Render(AdminPage) ==> st.session.Some? && st.isAdmin
    decreases hops
  {
    match Resolve(path, st)
    case Render(p) => Render(p)
    case Redirect(to) => if hops == 0 then Redirect(to) else Follow(to, st, hops - 1)
  }

  /** Every path settles on a page within two redirects. Without a session
      that page is always the login page; with one it never is, except on a
      path matching the login route. */
  lemma EveryPathSettles(path: string, st: Auth.AuthState)
    ensures Follow(path, st, 2).Render?
    ensures st.session.None? ==> Follow(path, st, 2) == Render(LoginPage)
    ensures st.session.Some? && !Matches("/login", path) ==> Follow(path, st, 2).page != LoginPage
  {
    RedirectTargetsMatch();
  }

  /** Only an administrator ever sees the admin panel, from any path. */
  lemma {:induction false} AdminPanelOnlyForAdmins(path: string, st: Auth.AuthState, hops: nat)
    ensures Follow(path, st, hops) == Render(AdminPage) <==> Matches("/admin", path) && st.session.Some? && st.isAdmin
    decreases hops
  {
    RedirectTargetsMatch();
    match Resolve(path, st)
    case Render(p) =>
    case Redirect(to) =>
      if hops > 0 {
        AdminPanelOnlyForAdmins(to, st, hops - 1);
      }
  }
}

=== FILE: server.dfy ===
/** The document backend (`server/index.js`): a metadata store keyed by
    document id and a blob store keyed by `id.ext`, with the four request
    handlers upload, download, editor configuration and save callback as
    transitions of that state. The clock, base64 decoding, token signing and
    verification, and the outbound fetch are parameters. */
module Server {
  import opened Text

  // ---------------------------------------------------------------------------
  // State

  /** The JSON metadata record kept per document. `fileUrl` is "" when the
      document is stored locally. */
  datatype Meta = Meta(id: string, name: string, mime: string, ext: string, updatedAt: int, fileUrl: string)

  datatype Store = Store(metas: map<string, Meta>, blobs: map<string, Bytes>)

  /** A handler's new state together with what it answers. */
  datatype Step<R> = Step(store: Store, reply: R)

  /** The file name under which a document's bytes are kept. */
  function BlobKey(id: string, ext: string): string {
    id + "." + ext
  }

  /** Every record sits under its own id and carries a dot-free extension,
      which keeps distinct documents on distinct blob keys. */
  ghost predicate WellFormed(st: Store) {
    forall k :: k in st.metas ==> st.metas[k].id == k && '.' !in st.metas[k].ext
  }

  lemma BlobKeyInjective(i1: string, e1: string, i2: string, e2: string)
    requires '.' !in e1 && '.' !in e2
    ensures BlobKey(i1, e1) == BlobKey(i2, e2) <==> i1 == i2 && e1 == e2
  {
    if BlobKey(i1, e1) == BlobKey(i2, e2) {
      var s := BlobKey(i1, e1);
      DotFreeSuffixIsLastPiece(i1, e1);
      DotFreeSuffixIsLastPiece(i2, e2);
      assert e1 == e2;
      assert i1 == s[..|i1|];
      assert i2 == s[..|i2|];
    }
  }

  lemma DotFreeSuffixIsLastPiece(i: string, e: string)
    requires '.' !in e
    ensures AfterLast(BlobKey(i, e), '.') == e
  {
    var s := BlobKey(i, e);
    var r := AfterLast(s, '.');
    assert s[|s| - |e| - 1] == '.';
    assert s[|s| - |e|..] == e;
  }

  // ---------------------------------------------------------------------------
  // Helpers shared by the handlers

  /** Where the server is reachable: the `PUBLIC_BASE_URL` override, and the
      request's forwarded and own protocol and host. */
  datatype Origin = Origin(publicBaseUrl: string, forwardedProto: string, protocol: string,
                           forwardedHost: string, host: string)

  /** `getBaseUrl`: the override with one trailing slash removed, otherwise
      `proto://host` preferring the forwarded headers. */
  function BaseUrl(o: Origin): (r: string)
    ensures Truthy(o.publicBaseUrl) ==> r == o.publicBaseUrl || r + "/" == o.publicBaseUrl
    ensures Truthy(o.publicBaseUrl) && o.publicBaseUrl[|o.publicBaseUrl| - 1] != '/' ==> r == o.publicBaseUrl
    ensures Truthy(o.publicBaseUrl) && o.publicBaseUrl[|o.publicBaseUrl| - 1] == '/' ==>
      r == o.publicBaseUrl[..|o.publicBaseUrl| - 1]
    ensures !Truthy(o.publicBaseUrl) ==> Contains(r, "://")
    ensures !Truthy(o.publicBaseUrl) ==>
      r == OrElse(o.forwardedProto, o.protocol) + "://" + OrElse(o.forwardedHost, o.host)
  {
    var env := o.publicBaseUrl;
    if Truthy(env) then
      (if env[|env| - 1] == '/' then env[..|env| - 1] else env)
    else
      var proto := OrElse(o.forwardedProto, o.protocol);
      var host := OrElse(o.forwardedHost, o.host);
      assert OccursAt(proto + "://" + host, "://", |proto|);
      proto + "://" + host
  }

  function DownloadUrl(o: Origin, id: string): string {
    BaseUrl(o) + "/api/documents/" + id + "/download"
  }

  function CallbackUrl(o: Origin, id: string): string {
    BaseUrl(o) + "/api/documents/" + id + "/callback"
  }

  const MimeTable: map<string, string> := map[
    "application/vnd.openxmlformats-officedocument.wordprocessingml.document" := "docx",
    "application/vnd.oasis.opendocument.text" := "odt",
    "application/msword" := "doc",
    "application/pdf" := "pdf",
    "application/vnd.openxmlformats-officedocument.spreadsheetml.sheet" := "xlsx",
    "application/vnd.openxmlformats-officedocument.presentationml.presentation" := "pptx"
  ]

  /** `extFromMime`: the table's extension, "docx" for any other MIME type. */
  function ExtFromMime(mime: string): (r: string)
    ensures r in {"docx", "odt", "doc", "pdf", "xlsx", "pptx"}
    ensures mime !in MimeTable ==> r == "docx"
    ensures mime in MimeTable ==> r == MimeTable[mime]
  {
    if mime in MimeTable then MimeTable[mime] else "docx"
  }

  datatype DocumentType = Word | Cell | Slide

  /** `documentTypeFromExt`. */
  function DocumentTypeFromExt(ext: string): (r: DocumentType)
    ensures r == Cell <==> ext in {"xls", "xlsx", "ods"}
    ensures r == Slide <==> ext in {"ppt", "pptx", "odp"}
  {
    if ext in {"xls", "xlsx", "ods"} then Cell
    else if ext in {"ppt", "pptx", "odp"} then Slide
    else Word
  }

  /** The extension the upload handler records: the lowercased text after
      the last '.' when the name has one, otherwise the MIME table's. */
  function ExtOf(name: string, mime: string): (r: string)
    ensures '.' !in r
    ensures '.' in name ==> |r| <= |name| && r == Lower(name[|name| - |r|..])
    ensures '.' in name && |r| < |name| ==> name[|name| - |r| - 1] == '.'
    ensures '.' !in name ==> r == ExtFromMime(mime)
  {
    if '.' in name then
      var tail := AfterLast(name, '.');
      LowerKeepsDots(tail);
      Lower(tail)
    else ExtFromMime(mime)
  }

  /** A name `base.e` with a dot-free `e` takes the extension `e`, lowercased. */
  lemma ExtOfDottedName(base: string, e: string, mime: string)
    requires '.' !in e
    ensures ExtOf(base + "." + e, mime) == Lower(e)
  {
    var name := base + "." + e;
    assert name[|base|] == '.';
    DotFreeSuffixIsLastPiece(base, e);
  }

  lemma LowerKeepsDots(s: string)
    ensures '.' in Lower(s) <==> '.' in s
  {
    if '.' in Lower(s) {
      var i :| 0 <= i < |s| && Lower(s)[i] == '.';
      assert LowerChar(s[i]) == '.';
    }
    if '.' in s {
      var i :| 0 <= i < |s| && s[i] == '.';
      assert Lower(s)[i] == '.';
    }
  }

  /** The base64 text kept from an upload: `base64.split(',')[1] || base64`,
      i.e. the piece between the first and the second comma when that piece
      is non-empty, otherwise the whole string. */
  function DataPart(b64: string): (r: string)
    ensures r == b64 || (Truthy(r) && ',' !in r)
    ensures ',' !in b64 ==> r == b64
    ensures var parts := Split(b64, ',');
      |parts| > 1 && Truthy(parts[1]) ==> r == parts[1]
    ensures var parts := Split(b64, ',');
      !(|parts| > 1 && Truthy(parts[1])) ==> r == b64
  {
    var parts := Split(b64, ',');
    if |parts| > 1 && Truthy(parts[1]) then parts[1] else b64
  }

  /** A data URL `header,payload` keeps exactly its payload. */
  lemma DataPartOfDataUrl(header: string, payload: string)
    requires ',' !in header && ',' !in payload && Truthy(payload)
    ensures DataPart(header + "," + payload) == payload
  {
    SplitAtSeparator(header, payload, ',');
    assert Split(payload, ',') == [payload] by {
      var r := Split(payload, ',');
      assert |r| == 1;
    }
  }

  lemma {:induction false} SplitAtSeparator(a: string, b: string, c: char)
    requires c !in a
    ensures Split(a + [c] + b, c) == [a] + Split(b, c)
    decreases |a|
  {
    var s := a + [c] + b;
    if |a| == 0 {
      assert s[1..] == b;
    } else {
      assert s[1..] == a[1..] + [c] + b;
      SplitAtSeparator(a[1..], b, c);
      assert [s[0]] + a[1..] == a;
    }
  }

  // ---------------------------------------------------------------------------
  // POST /api/documents

  /** The upload body; absent fields are "". */
  datatype UploadRequest = UploadRequest(id: string, name: string, mime: string, base64: string, fileUrl: string)

  datatype UploadReply = BadRequest | Uploaded(id: string, fileUrl: string, downloadUrl: string)

  predicate ValidUpload(req: UploadRequest) {
    Truthy(req.id) && Truthy(req.name) && Truthy(req.mime) && (Truthy(req.base64) || Truthy(req.fileUrl))
  }

  function UploadedMeta(req: UploadRequest, now: int): Meta {
    Meta(req.id, req.name, req.mime, ExtOf(req.name, req.mime), now, req.fileUrl)
  }

  /** The upload handler. A missing id, name or type, or a body with neither
      payload, is refused with 400 and writes nothing. An external `fileUrl`
      (which wins over `base64`) is recorded in the metadata and no bytes
      are stored; otherwise the decoded data part is stored as `id.ext`. */
  function Upload(st: Store, req: UploadRequest, o: Origin, now: int, decode: string -> Bytes): (out: Step<UploadReply>)
    ensures !ValidUpload(req) ==> out == Step(st, BadRequest)
    ensures ValidUpload(req) ==>
      && out.reply.Uploaded? && out.reply.id == req.id
      && out.store.metas == st.metas[req.id := UploadedMeta(req, now)]
    ensures ValidUpload(req) && Truthy(req.fileUrl) ==>
      && out.store.blobs == st.blobs
      && out.reply.fileUrl == req.fileUrl && out.reply.downloadUrl == req.fileUrl
    ensures ValidUpload(req) && !Truthy(req.fileUrl) ==>
      && out.store.blobs == st.blobs[BlobKey(req.id, ExtOf(req.name, req.mime)) := decode(DataPart(req.base64))]
      && out.reply.downloadUrl == DownloadUrl(o, req.id)
  {
    if !ValidUpload(req) then Step(st, BadRequest)
    else
      var meta := UploadedMeta(req, now);
      if Truthy(req.fileUrl) then
        Step(Store(st.metas[req.id := meta], st.blobs), Uploaded(req.id, req.fileUrl, req.fileUrl))
      else
        var bytes := decode(DataPart(req.base64));
        Step(Store(st.metas[req.id := meta], st.blobs[BlobKey(req.id, meta.ext) := bytes]),
             Uploaded(req.id, "", DownloadUrl(o, req.id)))
  }

  lemma UploadPreservesWellFormed(st: Store, req: UploadRequest, o: Origin, now: int, decode: string -> Bytes)
    requires WellFormed(st)
    ensures WellFormed(Upload(st, req, o, now, decode).store)
  {
  }

  // ---------------------------------------------------------------------------
  // GET /api/documents/:id/download

  datatype DownloadReply = NotFound | Redirect(url: string) | Serve(filename: string, bytes: Bytes)

  /** 404 without metadata; a redirect for an external document; the local
      bytes under the original name; 404 when those bytes are missing. */
  function Download(st: Store, id: string): (r: DownloadReply)
    ensures id !in st.metas ==> r == NotFound
    ensures id in st.metas && Truthy(st.metas[id].fileUrl) ==> r == Redirect(st.metas[id].fileUrl)
    ensures r.Serve? ==>
      && id in st.metas && !Truthy(st.metas[id].fileUrl)
      && r.filename == st.metas[id].name && BlobKey(id, st.metas[id].ext) in st.blobs
      && r.bytes == st.blobs[BlobKey(id, st.metas[id].ext)]
    ensures id in st.metas && !Truthy(st.metas[id].fileUrl) && BlobKey(id, st.metas[id].ext) !in st.blobs ==> r == NotFound
    ensures id in st.metas && !Truthy(st.metas[id].fileUrl) && BlobKey(id, st.metas[id].ext) in st.blobs ==>
      r == Serve(st.metas[id].name, st.blobs[BlobKey(id, st.metas[id].ext)])
  {
    if id !in st.metas then NotFound
    else
      var meta := st.metas[id];
      if Truthy(meta.fileUrl) then Redirect(meta.fileUrl)
      else
        var key := BlobKey(id, meta.ext);
        if key !in st.blobs then NotFound else Serve(meta.name, st.blobs[key])
  }

  /** Upload followed by download gives back exactly the stored data part. */
  lemma UploadDownloadRoundTrip(st: Store, req: UploadRequest, o: Origin, now: int, decode: string -> Bytes)
    requires ValidUpload(req) && !Truthy(req.fileUrl)
    ensures Download(Upload(st, req, o, now, decode).store, req.id) == Serve(req.name, decode(DataPart(req.base64)))
  {
  }

  /** An upload that names an external URL is served by redirecting to it. */
  lemma ExternalUploadRedirects(st: Store, req: UploadRequest, o: Origin, now: int, decode: string -> Bytes)
    requires ValidUpload(req) && Truthy(req.fileUrl)
    ensures Download(Upload(st, req, o, now, decode).store, req.id) == Redirect(req.fileUrl)
    ensures Upload(st, req, o, now, decode).store.blobs == st.blobs
  {
  }

  // ---------------------------------------------------------------------------
  // GET /api/documents/:id/onlyoffice-config

  datatype Permissions = Permissions(edit: bool, download: bool, printing: bool, review: bool, comment: bool)

  /** The editor configuration handed to the document server (presentation
      fields such as language, size and customisation are not modelled). */
  datatype EditorConfig = EditorConfig(
    fileType: string, key: string, title: string, url: string, permissions: Permissions,
    documentType: DocumentType, mode: string, callbackUrl: string, userId: string)

  datatype ConfigReply = ConfigNotFound | Issued(config: EditorConfig, token: string)

  /** The cache key the editor uses: `id_updatedAt`. */
  function DocumentKey(id: string, updatedAt: int): string {
    id + "_" + IntString(updatedAt)
  }

  /** For a fixed document the key changes exactly when the timestamp does. */
  lemma DocumentKeyChangesWithTime(id: string, t1: int, t2: int)
    ensures DocumentKey(id, t1) == DocumentKey(id, t2) <==> t1 == t2
  {
    SamePrefixCancels(id + "_", IntString(t1), IntString(t2));
    IntStringInjective(t1, t2);
  }

  /** The configuration handler: 404 for an unknown id, before anything is
      signed; otherwise the configuration and its signature. */
  function Config(st: Store, id: string, o: Origin, sign: EditorConfig -> string): (r: ConfigReply)
    ensures id !in st.metas <==> r == ConfigNotFound
    ensures r.Issued? ==>
      && r.token == sign(r.config)
      && r.config.key == DocumentKey(id, st.metas[id].updatedAt)
      && r.config.fileType == st.metas[id].ext
      && r.config.title == st.metas[id].name
      && r.config.url == OrElse(st.metas[id].fileUrl, DownloadUrl(o, id))
      && r.config.documentType == DocumentTypeFromExt(st.metas[id].ext)
      && r.config.permissions == Permissions(true, true, true, true, true)
      && r.config.callbackUrl == CallbackUrl(o, id)
  {
    if id !in st.metas then ConfigNotFound
    else
      var meta := st.metas[id];
      var config := EditorConfig(
        meta.ext, DocumentKey(id, meta.updatedAt), meta.name, OrElse(meta.fileUrl, DownloadUrl(o, id)),
        Permissions(true, true, true, true, true), DocumentTypeFromExt(meta.ext), "edit",
        CallbackUrl(o, id), "user1");
      Issued(config, sign(config))
  }

  // ---------------------------------------------------------------------------
  // POST /api/documents/:id/callback

  /** The callback body; absent fields are "" and an absent or non-numeric
      status is any number outside the save codes. */
  datatype CallbackBody = CallbackBody(status: int, url: string, token: string)

  /** What the fetch of the editor's url produced: a body, or a thrown error. */
  datatype Fetch = Fetched(bytes: Bytes) | FetchFailed

  datatype CallbackReply = CallbackReply(httpStatus: int, error: int)

  /** Status 2 (ready to save) and 6 (force save while editing). */
  predicate IsSaveStatus(status: int) {
    status == 2 || status == 6
  }

  /** The token from a case-sensitive "Bearer " authorization header, or
      else the body's `token`. */
  function BearerToken(authorization: string, body: CallbackBody): (t: string)
    ensures StartsWith(authorization, "Bearer ") ==> authorization == "Bearer " + t
    ensures !StartsWith(authorization, "Bearer ") ==> t == body.token
  {
    if StartsWith(authorization, "Bearer ") then authorization[7..] else body.token
  }

  /** The save callback. A token that is present but does not verify gets
      403 `{error:1}`; no token at all is accepted. A save status with a url
      overwrites the document's bytes and moves `updatedAt` to the clock,
      answering `{error:0}`, unless the fetch fails or the document is
      unknown (`{error:1}`); every other status is acknowledged with
      `{error:0}`. Nothing changes except on a successful save. */
  function Callback(st: Store, id: string, authorization: string, body: CallbackBody,
                    tokenValid: string -> bool, fetch: Fetch, now: int): (out: Step<CallbackReply>)
    ensures out.store != st ==> out.reply == CallbackReply(200, 0)
    ensures var t := BearerToken(authorization, body);
      Truthy(t) && !tokenValid(t) ==> out == Step(st, CallbackReply(403, 1))
    ensures !IsSaveStatus(body.status) || !Truthy(body.url) ==>
      out.store == st && out.reply.error == (if out.reply.httpStatus == 403 then 1 else 0)
    ensures out.reply == CallbackReply(200, 0) && IsSaveStatus(body.status) && Truthy(body.url) ==>
      && id in st.metas && fetch.Fetched?
      && out.store.metas == st.metas[id := st.metas[id].(updatedAt := now)]
      && out.store.blobs == st.blobs[BlobKey(id, st.metas[id].ext) := fetch.bytes]
    ensures IsSaveStatus(body.status) && Truthy(body.url) && (fetch.FetchFailed? || id !in st.metas) ==>
      out.store == st && out.reply.error == 1
    ensures var t := BearerToken(authorization, body);
      (!Truthy(t) || tokenValid(t)) && (!IsSaveStatus(body.status) || !Truthy(body.url)) ==>
      out == Step(st, CallbackReply(200, 0))
    ensures var t := BearerToken(authorization, body);
      (!Truthy(t) || tokenValid(t)) && IsSaveStatus(body.status) && Truthy(body.url) ==>
      (out.reply == CallbackReply(200, 0) <==> fetch.Fetched? && id in st.metas)
    ensures var t := BearerToken(authorization, body);
      (!Truthy(t) || tokenValid(t)) && IsSaveStatus(body.status) && Truthy(body.url)
      && (fetch.FetchFailed? || id !in st.metas) ==>
      out == Step(st, CallbackReply(200, 1))
  {
    var token := BearerToken(authorization, body);
    if Truthy(token) && !tokenValid(token) then Step(st, CallbackReply(403, 1))
    else if IsSaveStatus(body.status) && Truthy(body.url) then
      match fetch
      case FetchFailed => Step(st, CallbackReply(200, 1))
      case Fetched(bytes) =>
        if id !in st.metas then Step(st, CallbackReply(200, 1))
        else
          var meta := st.metas[id];
          Step(Store(st.metas[id := meta.(updatedAt := now)], st.blobs[BlobKey(id, meta.ext) := bytes]),
               CallbackReply(200, 0))
    else Step(st, CallbackReply(200, 0))
  }

  lemma CallbackPreservesWellFormed(st: Store, id: string, authorization: string, body: CallbackBody,
                                    tokenValid: string -> bool, fetch: Fetch, now: int)
    requires WellFormed(st)
    ensures WellFormed(Callback(st, id, authorization, body, tokenValid, fetch, now).store)
  {
  }

  /** A successful save changes the editor key exactly when the clock has
      moved since the previous save or upload; a save within the same
      millisecond leaves the key, and so the editor's cached copy, as it was. */
  lemma SaveChangesDocumentKey(st: Store, id: string, authorization: string, body: CallbackBody,
                               tokenValid: string -> bool, fetch: Fetch, now: int,
                               o: Origin, sign: EditorConfig -> string)
    requires id in st.metas && IsSaveStatus(body.status) && Truthy(body.url) && fetch.Fetched?
    requires var t := BearerToken(authorization, body); !Truthy(t) || tokenValid(t)
    ensures var after := Callback(st, id, authorization, body, tokenValid, fetch, now).store;
      var k0 := Config(st, id, o, sign).config.key;
      var k1 := Config(after, id, o, sign).config.key;
      k0 != k1 <==> now != st.metas[id].updatedAt
  {
    DocumentKeyChangesWithTime(id, st.metas[id].updatedAt, now);
  }

  /** After a successful save, a locally stored document serves the fetched
      bytes; an external document still redirects to its original url, so
      the saved bytes are never served. */
  lemma SaveThenDownload(st: Store, id: string, authorization: string, body: CallbackBody,
                         tokenValid: string -> bool, bytes: Bytes, now: int)
    requires id in st.metas && IsSaveStatus(body.status) && Truthy(body.url)
    requires var t := BearerToken(authorization, body); !Truthy(t) || tokenValid(t)
    ensures var after := Callback(st, id, authorization, body, tokenValid, Fetched(bytes), now).store;
      Download(after, id) ==
        if Truthy(st.metas[id].fileUrl) then Redirect(st.metas[id].fileUrl)
        else Serve(st.metas[id].name, bytes)
  {
  }

  /** A callback for one document leaves what every other document
      downloads as it was. */
  lemma CallbackLeavesOtherDocuments(st: Store, id: string, other: string, authorization: string,
                                     body: CallbackBody, tokenValid: string -> bool, fetch: Fetch, now: int)
    requires WellFormed(st) && other != id
    ensures Download(Callback(st, id, authorization, body, tokenValid, fetch, now).store, other) == Download(st, other)
  {
    var after := Callback(st, id, authorization, body, tokenValid, fetch, now).store;
    if after != st && other in st.metas {
      BlobKeyInjective(id, st.metas[id].ext, other, st.metas[other].ext);
    }
  }
}

=== FILE: settings.dfy ===
/** The account settings form (`Settings.jsx`): how a submit turns the form
    into a profile update for the signed-in user. */
module Settings {
  import opened Text
  import Auth

  datatype SettingsForm = SettingsForm(name: string, email: string, password: string)

  /** The form as the page opens: the session's name and email, no
      password. */
  function OpenForm(s: Auth.Session): (f: SettingsForm)
    ensures f.name == s.name && f.email == s.email && f.password == ""
  {
    SettingsForm(OrElse(s.name, ""), OrElse(s.email, ""), "")
  }

  /** The update sent: always the name and email, and the password only
      when one was typed. */
  function BuildUpdates(f: SettingsForm): (p: Auth.ProfilePatch)
    ensures p.name == Some(f.name) && p.email == Some(f.email)
    ensures p.password.Some? <==> Truthy(f.password)
    ensures p.password.Some? ==> p.password.value == f.password
  {
    Auth.ProfilePatch(Some(f.name), Some(f.email), if Truthy(f.password) then Some(f.password) else None)
  }

  /** `handleSubmit`, on the page only a signed-in user reaches: the update
      goes to the session's own id, and the password field is cleared while
      name and email stay. */
  function Submit(st: Auth.AuthState, f: SettingsForm): (r: (Auth.AuthState, SettingsForm))
    requires st.session.Some?
    ensures r.0 == Auth.UpdateProfile(st, st.session.value.id, BuildUpdates(f))
    ensures r.1 == f.(password := "")
  {
    (Auth.UpdateProfile(st, st.session.value.id, BuildUpdates(f)), f.(password := ""))
  }

  /** A blank password leaves every stored password as it was; a typed one
      becomes the password of exactly the signed-in user's records. */
  lemma PasswordChangesOnlyWhenTyped(st: Auth.AuthState, f: SettingsForm, i: nat)
    requires st.session.Some? && i < |Auth.Users(st)|
    ensures var after := Auth.Users(Submit(st, f).0);
      && (!Truthy(f.password) || Auth.Users(st)[i].id != st.session.value.id ==>
            after[i].password == Auth.Users(st)[i].password)
      && (Truthy(f.password) && Auth.Users(st)[i].id == st.session.value.id ==>
            after[i].password == f.password)
  {
  }

  /** After saving, the signed-in user can sign in with the new email and
      the new password, or the old one when none was typed. */
  lemma SavedCredentialsSignIn(st: Auth.AuthState, f: SettingsForm, i: nat)
    requires st.session.Some? && i < |Auth.Users(st)| && Auth.Users(st)[i].id == st.session.value.id
    ensures var after := Submit(st, f).0;
      var pw := if Truthy(f.password) then f.password else Auth.Users(st)[i].password;
      Auth.Login(after, f.email, pw).1
  {
    var after := Auth.Users(Submit(st, f).0);
    assert after[i].email == f.email;
  }

  /** The session never ends up holding a typed password. */
  lemma SessionNeverKeepsPassword(st: Auth.AuthState, f: SettingsForm)
    requires st.session.Some? && st.session.value.password.None?
    ensures var s := Submit(st, f).0.session;
      s.Some? && (s.value.password.None? || s.value.password == Some(""))
  {
  }

  /** Sign-out from the settings page: the session ends and the page moves
      to the login route. */
  function SignOut(st: Auth.AuthState): (r: (Auth.AuthState, string))
    ensures r.0.session.None? && !r.0.isAdmin && r.0.stored == st.stored
    ensures r.1 == "/login"
  {
    (Auth.Logout(st), "/login")
  }
}

=== FILE: sidebar.dfy ===
/** The placeholder sidebar of the editor (`PlaceholderSidebar.jsx`): the
    category chips, the search-and-category filter over the placeholder
    list, and the code a card hands to the editor when it is inserted or
    dragged. */
module Sidebar {
  import opened Text
  import Lists
  import Documents
  import Preview

  // ---------------------------------------------------------------------------
  // Category chips

  predicate NoDuplicates(xs: seq<string>) {
    forall i, j :: 0 <= i < j < |xs| ==> xs[i] != xs[j]
  }

  /** `[...new Set(xs)]`: each value once, where it first appears. */
  function Dedup(xs: seq<string>): (r: seq<string>)
    ensures forall x :: x in r <==> x in xs
    ensures NoDuplicates(r)
    ensures Lists.IsSubsequence(r, xs)
    decreases |xs|
  {
    if |xs| == 0 then []
    else
      var init := xs[..|xs| - 1];
      var last := xs[|xs| - 1];
      var d := Dedup(init);
      assert xs == init + [last];
      SubsequenceExtends(d, init, last);
      if last in d then d
      else
        SubsequenceAppend(d, init, last);
        d + [last]
  }

  lemma {:induction false} SubsequenceExtends(a: seq<string>, b: seq<string>, x: string)
    requires Lists.IsSubsequence(a, b)
    ensures Lists.IsSubsequence(a, b + [x])
    decreases |b|
  {
    if |a| > 0 && |b| > 0 {
      assert (b + [x])[1..] == b[1..] + [x];
      if a[0] == b[0] && Lists.IsSubsequence(a[1..], b[1..]) {
        SubsequenceExtends(a[1..], b[1..], x);
      } else {
        SubsequenceExtends(a, b[1..], x);
      }
    }
  }

  lemma {:induction false} SubsequenceAppend(a: seq<string>, b: seq<string>, x: string)
    requires Lists.IsSubsequence(a, b)
    ensures Lists.IsSubsequence(a + [x], b + [x])
    decreases |b|
  {
    if |a| == 0 {
      SingletonIsSubsequence(b, x);
      assert a + [x] == [x];
    } else {
      assert (b + [x])[1..] == b[1..] + [x];
      assert (a + [x])[1..] == a[1..] + [x];
      if a[0] == b[0] && Lists.IsSubsequence(a[1..], b[1..]) {
        SubsequenceAppend(a[1..], b[1..], x);
      } else {
        SubsequenceAppend(a, b[1..], x);
      }
    }
  }

  lemma {:induction false} SingletonIsSubsequence(b: seq<string>, x: string)
    ensures Lists.IsSubsequence([x], b + [x])
    decreases |b|
  {
    if |b| > 0 {
      assert (b + [x])[1..] == b[1..] + [x];
      SingletonIsSubsequence(b[1..], x);
    } else {
      assert ([x] + [])[1..] == [];
    }
  }

  /** Values are listed in the order they first appear: the chips of a
      shorter list of categories are a prefix of the chips of a longer one. */
  lemma {:induction false} DedupKeepsFirstAppearanceOrder(xs: seq<string>, k: nat)
    requires k <= |xs|
    ensures Dedup(xs[..k]) <= Dedup(xs)
    decreases |xs| - k
  {
    if k < |xs| {
      DedupKeepsFirstAppearanceOrder(xs, k + 1);
      var ys := xs[..k + 1];
      assert ys[..|ys| - 1] == xs[..k];
    } else {
      assert xs[..k] == xs;
    }
  }

  function CategoriesOf(ps: seq<Documents.Placeholder>): (cs: seq<string>)
    ensures |cs| == |ps| && forall i :: 0 <= i < |ps| ==> cs[i] == ps[i].category
  {
    seq(|ps|, i requires 0 <= i < |ps| => ps[i].category)
  }

  /** The chips: "All" first, then every category in use once, in order of
      first use. A category literally named "All" gets a second chip. */
  function Categories(ps: seq<Documents.Placeholder>): (r: seq<string>)
    ensures |r| >= 1 && r[0] == "All"
    ensures forall c :: c in r[1..] <==> exists i :: 0 <= i < |ps| && ps[i].category == c
    ensures NoDuplicates(r[1..])
  {
    var d := Dedup(CategoriesOf(ps));
    assert (["All"] + d)[1..] == d;
    ["All"] + d
  }

  // ---------------------------------------------------------------------------
  // Filtering

  /** The search term occurs, ignoring case, in the code or the category. */
  predicate MatchesSearch(p: Documents.Placeholder, term: string) {
    Contains(Lower(p.code), Lower(term)) || Contains(Lower(p.category), Lower(term))
  }

  predicate MatchesCategory(p: Documents.Placeholder, selected: string) {
    selected == "All" || p.category == selected
  }

  /** The cards shown: the placeholders passing both tests, in list order,
      none added and each passing one kept. */
  function Filtered(ps: seq<Documents.Placeholder>, term: string, selected: string): (r: seq<Documents.Placeholder>)
    ensures Lists.IsSubsequence(r, ps)
    ensures forall p :: p in r <==> p in ps && MatchesSearch(p, term) && MatchesCategory(p, selected)
    ensures forall p: Documents.Placeholder :: MatchesSearch(p, term) && MatchesCategory(p, selected) ==>
      multiset(r)[p] == multiset(ps)[p]
  {
    var keep := (p: Documents.Placeholder) => MatchesSearch(p, term) && MatchesCategory(p, selected);
    forall p ensures p in Lists.Filter(ps, keep) <==> p in ps && keep(p) {
      Lists.FilterKeepsMembers(ps, keep, p);
    }
    Lists.Filter(ps, keep)
  }

  /** On opening (empty search, "All" selected) every placeholder is shown. */
  lemma InitialShowsEverything(ps: seq<Documents.Placeholder>)
    ensures Filtered(ps, "", "All") == ps
  {
    var keep := (p: Documents.Placeholder) => MatchesSearch(p, "") && MatchesCategory(p, "All");
    forall i | 0 <= i < |ps| ensures keep(ps[i]) {
      EmptyIsContained(Lower(ps[i].code));
    }
    Lists.FilterAll(ps, keep);
  }

  /** Choosing a category chip other than "All" shows only that category. */
  lemma ChipShowsOnlyItsCategory(ps: seq<Documents.Placeholder>, term: string, selected: string)
    requires selected != "All"
    ensures forall p :: p in Filtered(ps, term, selected) ==> p.category == selected
  {
  }

  lemma {:induction false} FilterSameTest(s: seq<Documents.Placeholder>, f: Documents.Placeholder -> bool,
                                          g: Documents.Placeholder -> bool)
    requires forall i :: 0 <= i < |s| ==> f(s[i]) == g(s[i])
    ensures Lists.Filter(s, f) == Lists.Filter(s, g)
    decreases |s|
  {
    if |s| > 0 {
      FilterSameTest(s[1..], f, g);
    }
  }

  /** The search ignores case: typing the term in lower case shows the same
      cards. */
  lemma SearchIgnoresCase(ps: seq<Documents.Placeholder>, term: string, selected: string)
    ensures Filtered(ps, Lower(term), selected) == Filtered(ps, term, selected)
  {
    LowerIdempotent(term);
    FilterSameTest(ps,
      (p: Documents.Placeholder) => MatchesSearch(p, Lower(term)) && MatchesCategory(p, selected),
      (p: Documents.Placeholder) => MatchesSearch(p, term) && MatchesCategory(p, selected));
  }

  // ---------------------------------------------------------------------------
  // Inserting

  /** What a card hands over, by the Insert button or as the `text/plain`
      payload of a drag: its code. */
  function Insertion(p: Documents.Placeholder): string {
    p.code
  }

  /** A document consisting of just an inserted code previews as that
      placeholder's demo value, provided no earlier listed code is a prefix
      of it. */
  lemma InsertedCodePreviewsAsDemo(ps: seq<Documents.Placeholder>, i: nat)
    requires Preview.CodesNonEmpty(ps) && i < |ps|
    requires forall j :: 0 <= j < i ==> !StartsWith(ps[i].code, ps[j].code)
    ensures Preview.DisplayText(Preview.Segments(ps, Insertion(ps[i]))) == ps[i].demoValue
  {
    var code := Insertion(ps[i]);
    var alts := Preview.Alternatives(ps);
    assert StartsWith(code, alts[i]) by { assert code[..|code|] == code; }
    assert Preview.FirstMatch(alts, code) == Some(i);
    Preview.RenderMatchesSubstitution(ps, code);
    Preview.SubstituteReplaces(ps, code, i);
    assert code[|ps[i].code|..] == "";
  }
}

=== FILE: text.dfy ===
/** Small vocabulary shared by every module: optional values, bytes, and the
    handful of JavaScript string operations the application relies on
    (truthiness, `toLowerCase` restricted to ASCII, `split` on one character,
    `startsWith`, `includes`, and decimal rendering of integers). */
module Text {

  datatype Option<+T> = None | Some(value: T) {
    function GetOr(default: T): T {
      match this
      case Some(v) => v
      case None => default
    }
  }

  newtype byte = x: int | 0 <= x < 256
  type Bytes = seq<byte>

  /** A JavaScript string is falsy exactly when it is empty. */
  predicate Truthy(s: string) {
    |s| > 0
  }

  /** `a || b` on two strings. */
  function OrElse(a: string, b: string): (r: string)
    ensures Truthy(a) ==> r == a
    ensures !Truthy(a) ==> r == b
  {
    if Truthy(a) then a else b
  }

  // ---------------------------------------------------------------------------
  // Case folding

  predicate IsUpper(c: char) {
    'A' <= c <= 'Z'
  }

  function LowerChar(c: char): char {
    if IsUpper(c) then (c as int + 32) as char else c
  }

  /** `toLowerCase`, restricted to the ASCII letters. */
  function Lower(s: string): (r: string)
    ensures |r| == |s|
    ensures forall i :: 0 <= i < |s| ==> r[i] == LowerChar(s[i])
    ensures forall i :: 0 <= i < |r| ==> !IsUpper(r[i])
  {
    seq(|s|, i requires 0 <= i < |s| => LowerChar(s[i]))
  }

  lemma LowerIdempotent(s: string)
    ensures Lower(Lower(s)) == Lower(s)
  {
    assert forall i :: 0 <= i < |s| ==> LowerChar(LowerChar(s[i])) == LowerChar(s[i]);
  }

  lemma LowerAppend(a: string, b: string)
    ensures Lower(a + b) == Lower(a) + Lower(b)
  {
  }

  /** Text without capitals is its own lower case. */
  lemma LowerKeepsLowercase(s: string)
    requires forall i :: 0 <= i < |s| ==> !IsUpper(s[i])
    ensures Lower(s) == s
  {
  }

  // ---------------------------------------------------------------------------
  // Prefixes and substrings

  predicate StartsWith(s: string, prefix: string) {
    |prefix| <= |s| && s[..|prefix|] == prefix
  }

  predicate OccursAt(hay: string, needle: string, k: int) {
    0 <= k && k + |needle| <= |hay| && hay[k..k + |needle|] == needle
  }

  /** `hay.includes(needle)`. */
  predicate Contains(hay: string, needle: string) {
    exists k | 0 <= k <= |hay| :: OccursAt(hay, needle, k)
  }

  lemma EmptyIsContained(hay: string)
    ensures Contains(hay, "")
  {
    assert OccursAt(hay, "", 0);
  }

  lemma ContainsSelf(s: string)
    ensures Contains(s, s)
  {
    assert OccursAt(s, s, 0);
  }

  // ---------------------------------------------------------------------------
  // `s.split(c)` for a one-character separator, and its inverse `join`

  /** `parts.join(c)`; the empty list joins to the empty string. */
  function Join(parts: seq<string>, c: char): string
    decreases |parts|
  {
    if |parts| == 0 then ""
    else if |parts| == 1 then parts[0]
    else parts[0] + [c] + Join(parts[1..], c)
  }

  /** `s.split(c)`: the maximal `c`-free pieces of `s`, in order. Joining them
      back with `c` gives `s` again. */
  function Split(s: string, c: char): (r: seq<string>)
    ensures |r| >= 1
    ensures forall i :: 0 <= i < |r| ==> c !in r[i]
    ensures Join(r, c) == s
    ensures |r| == 1 <==> c !in s
    decreases |s|
  {
    if |s| == 0 then [""]
    else
      var rest := Split(s[1..], c);
      if s[0] == c then
        assert ([""] + rest)[1..] == rest;
        [""] + rest
      else
        var r := [[s[0]] + rest[0]] + rest[1..];
        assert r[1..] == rest[1..];
        assert s == [s[0]] + s[1..];
        r
  }

  /** `s.split(c).pop()`: the text after the last `c`, or all of `s`. */
  function AfterLast(s: string, c: char): (r: string)
    ensures c !in r
    ensures |r| <= |s| && s[|s| - |r|..] == r
    ensures |r| < |s| ==> s[|s| - |r| - 1] == c
    ensures c !in s ==> r == s
  {
    var parts := Split(s, c);
    LastPieceIsSuffix(parts, c);
    parts[|parts| - 1]
  }

  lemma {:induction false} LastPieceIsSuffix(parts: seq<string>, c: char)
    requires |parts| >= 1
    ensures var j := Join(parts, c); var l := parts[|parts| - 1];
      |l| <= |j| && j[|j| - |l|..] == l && (|l| < |j| ==> j[|j| - |l| - 1] == c)
    decreases |parts|
  {
    if |parts| > 1 {
      LastPieceIsSuffix(parts[1..], c);
      var rest := Join(parts[1..], c);
      assert Join(parts, c) == (parts[0] + [c]) + rest;
    }
  }

  // ---------------------------------------------------------------------------
  // Decimal rendering of integers (`${n}` for an integral number)

  predicate IsDigit(c: char) {
    '0' <= c <= '9'
  }

  function DigitChar(d: nat): (c: char)
    requires d < 10
    ensures IsDigit(c)
  {
    ('0' as int + d) as char
  }

  function DecimalString(n: nat): (r: string)
    ensures |r| > 0
    ensures forall i :: 0 <= i < |r| ==> IsDigit(r[i])
    decreases n
  {
    if n < 10 then [DigitChar(n)] else DecimalString(n / 10) + [DigitChar(n % 10)]
  }

  /** Reads back a string of digits. */
  function ParseDecimal(s: string): nat
    requires forall i :: 0 <= i < |s| ==> IsDigit(s[i])
    decreases |s|
  {
    if |s| == 0 then 0
    else
      assert IsDigit(s[|s| - 1]);
      ParseDecimal(s[..|s| - 1]) * 10 + (s[|s| - 1] as int - '0' as int)
  }

  lemma {:induction false} ParseDecimalString(n: nat)
    ensures ParseDecimal(DecimalString(n)) == n
    decreases n
  {
    var r := DecimalString(n);
    if n >= 10 {
      ParseDecimalString(n / 10);
      assert r[..|r| - 1] == DecimalString(n / 10);
    }
  }

  lemma DecimalStringInjective(a: nat, b: nat)
    ensures DecimalString(a) == DecimalString(b) <==> a == b
  {
    if DecimalString(a) == DecimalString(b) {
      ParseDecimalString(a);
      ParseDecimalString(b);
    }
  }

  /** `${i}` for an integral JavaScript number. */
  function IntString(i: int): (r: string)
    ensures |r| > 0
    ensures i >= 0 ==> forall k :: 0 <= k < |r| ==> IsDigit(r[k])
    ensures i < 0 ==> r[0] == '-'
  {
    if i < 0 then "-" + DecimalString(-i) else DecimalString(i)
  }

  lemma IntStringInjective(a: int, b: int)
    ensures IntString(a) == IntString(b) <==> a == b
  {
    if IntString(a) == IntString(b) {
      if a < 0 && b < 0 {
        assert IntString(a)[1..] == DecimalString(-a);
        assert IntString(b)[1..] == DecimalString(-b);
        DecimalStringInjective(-a, -b);
      } else if a >= 0 && b >= 0 {
        DecimalStringInjective(a, b);
      }
    }
  }

  /** Two strings that share a prefix are equal exactly when what follows the
      prefix is equal. */
  lemma SamePrefixCancels(p: string, a: string, b: string)
    ensures p + a == p + b <==> a == b
  {
    if p + a == p + b {
      assert a == (p + a)[|p|..];
      assert b == (p + b)[|p|..];
    }
  }
}
